=== FILE: README.md ===
# BloomTracker phenology core, in Dafny

BloomTracker's Python backend watches vegetation greenness (NDVI, the
normalised difference vegetation index) over time and reports when plants
bloom. This project models its deterministic core as pure Dafny functions over
sequences of reals, integer day numbers and records. Each module follows one
source file:

- `Helpers` models `backend/utils/helpers.py`:
  - moving-average smoothing whose window shrinks at the edges;
  - filling gaps of more than 16 days with 8-day-spaced interpolated records;
  - growing degree days (GDD);
  - the phenology-stage, confidence-text and season classifiers;
  - coordinate and date-range validation;
  - grid-cell aggregation;
  - start, end and length of season.
- `App` models `backend/app.py`:
  - the 8-day date grid of the mock generator;
  - the validation order of the vegetation-indices endpoint;
  - `detect_bloom_from_ndvi`;
  - `predict_bloom_window`;
  - the bloom-map status rule;
  - the greenup, peak and senescence indices of the phenology-metrics endpoint.
- `Derivative` is the derivative-threshold detector. `backend/app.py` and
  `backend/services/nasa_api.py` each carry a copy of it; here it is defined
  once. The onset is the first adjacent difference above the threshold. The
  peak is the first maximum. The confidence is ten times the onset difference,
  capped at 1.
- `BloomDetector` models `backend/bloom_detector.py`. A loop collects the
  dates whose NDVI rose over the previous row by more than a threshold. It is
  proved equal to a filter over the row indices.
- `NasaService` models `backend/services/nasa_api.py`:
  - the `YYYY-MM-DD` ↔ `YYYYMMDD` date strings, proved to round-trip both ways;
  - the cumulative GDD of the weather-based NDVI estimate, proved to be a
    non-decreasing prefix sum;
  - `detect_bloom_real`, proved to agree with the copy in `App`.
- `Database` models `backend/models/database.py`: the records, plus
  `InMemoryStore` as a value that every `add_*` rebuilds. Every region holds
  only events inside its bounds, and adding an event keeps that true. The
  queries return exactly the matching records, in insertion order.
- `Common` holds the shared pieces: `Option`/`Result`, sums and means,
  `np.argmax`, filtering, and Python's `int()` on floats.
- `Calendar` holds the Gregorian arithmetic: leap years, day of year, and
  `date.toordinal()`. It also proves that comparing ordinals is comparing
  dates.

Dates are day numbers throughout. Subtracting two `datetime`s (`.days`) and
adding a `timedelta(days=k)` become integer arithmetic. The store compares
date strings; the model compares day numbers instead, and
`Calendar.OrdinalIsChronological` proves that comparing day numbers is
comparing dates.

## Model

| member | source | states |
|---|---|---|
| Common.ArgMax | backend/app.py:79 | the index returned holds the maximum, and every earlier element is strictly smaller: the first maximum, as `np.argmax` picks it |
| Common.Trunc | backend/app.py:93 | `int()` on a float truncates toward zero: floor for non-negative values, ceiling for negative ones |
| Calendar.DayOfYear | backend/app.py:42 | `tm_yday` lies between 1 and the length of the year |
| Calendar.MonthTableAgrees | backend/app.py:42 | the cumulative month table used for `tm_yday` is the sum of the lengths of the earlier months; each entry adds the previous month's length, and December's entry plus 31 is the year's length |
| Calendar.MaxOrdinalIsLastDate | backend/app.py:35 | the last day `datetime` represents, 9999-12-31, has day number 3652059 |
| Calendar.OrdinalIsChronological | backend/models/database.py:266-267 | one date precedes another iff its day number is smaller |
| Derivative.Diff | backend/app.py:68 | `np.diff` has one element fewer than a non-empty input, and element i is `x[i+1] - x[i]` |
| Derivative.FirstAbove | backend/app.py:72-75 | the first index whose difference exceeds the threshold, or None iff no difference does |
| Derivative.RapidRise | backend/app.py:68-81 | None iff no step exceeds the threshold; otherwise the onset is the first step above it and the peak is the first maximum; confidence is `min(10·step, 1)` and lies in (0, 1] |
| Derivative.PeakDominatesOnset | backend/app.py:78-80 | the peak value is the series maximum and is at least the onset value |
| Derivative.FlatSeriesHasNoRise | backend/app.py:72-84 | a series that never rises detects nothing |
| Derivative.OnsetMonotoneInThreshold | backend/app.py:71-75 | a bloom found at a higher threshold is found at a lower one, with an onset no later |
| Derivative.OnsetUnique | backend/app.py:72-75 | at most one index is the onset |
| App.DateGrid | backend/app.py:32-36 | dates `start + 8i`, all within [start, end], `(end-start)//8 + 1` of them; empty when end precedes start; the next step would pass end |
| App.DateGridCovers | backend/app.py:32-36 | every date on the 8-day cadence between start and end is generated |
| App.YearGridHas46 | backend/app.py:370-373 | a January-to-December request yields 46 composites in leap and common years |
| App.Clip01 | backend/app.py:46 | `np.clip(x, 0, 1)`: 0 below the range, 1 above it, and the value itself inside it |
| App.MockSeries | backend/app.py:41-54 | one clipped sample per grid date, in date order |
| App.VegetationIndices | backend/app.py:149-171 | invalid coordinates are rejected whatever the dates are; then unparsable dates; then a grid whose next 8-day step would pass 9999-12-31, where the `timedelta` addition overflows; then an empty range, where `np.max` raises; on success the data returned is the mock series of the requested range, the mean is its mean, max and min are samples of it, 0 ≤ min ≤ mean ≤ max ≤ 1, every sample lies between min and max, and the count is the grid size |
| App.Summarize | backend/app.py:157-166 | the mean is the samples' mean, max and min are attained by samples, every sample lies between min and max, 0 ≤ min ≤ mean ≤ max ≤ 1, and the count is the number of samples |
| App.DetectBloomFromNdvi | backend/app.py:59-84 | None for fewer than 3 samples, and None iff no step exceeds the threshold; otherwise the onset date and value come from the first steep step, the peak from the first maximum, onset value ≤ peak value, and confidence in (0, 1] |
| App.FloorSqrt | backend/app.py:94 | `int(np.std)` is the k with k² ≤ variance < (k+1)² |
| App.Variance | backend/app.py:94 | the population variance is never negative |
| App.WindowLabel | backend/app.py:101 | high iff std < 7, medium iff 7 ≤ std < 14, low iff std ≥ 14 |
| App.PredictBloomWindow | backend/app.py:87-105 | None iff fewer than 2 records; predicted is January 1st + trunc(mean) − 1; the window is predicted ± floor(std), so start ≤ predicted ≤ end; the label follows std |
| App.PredictionWithinHistory | backend/app.py:92-97 | when all past days lie in [lo, hi], the prediction falls between day lo and day hi of the current year |
| App.ConstantHistoryIsCertain | backend/app.py:93-103 | identical past days give a zero-width, high-confidence window on that day |
| App.BloomStatus | backend/app.py:283 | blooming iff mean > 0.6, vegetated iff 0.3 < mean ≤ 0.6, dormant iff mean ≤ 0.3 |
| App.BloomStatusMonotone | backend/app.py:283 | a greener point never gets a lower status |
| App.MapPoint | backend/app.py:281-283 | an empty series is skipped; a blooming point has some sample above 0.6 |
| App.FirstGreen | backend/app.py:378 | first index above 0.4, or None iff there is none |
| App.FirstBrown | backend/app.py:379 | first index at or after the start below 0.4, or None iff there is none |
| App.PhenologyIndices | backend/app.py:377-389 | None iff the series is empty (`np.argmax` raises); greenup ≤ peak ≤ senescence; every value before greenup is ≤ 0.4, and greenup's value is > 0.4 when some value is, else greenup is 0; peak is the argmax; every value from the peak up to senescence is ≥ 0.4, and senescence's value is < 0.4 when such a value exists, else it is the last index; length is `(sen − greenup)·8` |
| App.PhenologyOrdered | backend/app.py:377-389 | greenup ≤ peak ≤ senescence, so the season length is never negative |
| BloomDetector.Range | backend/bloom_detector.py:11 | `range(lo, hi)` lists lo, lo+1, …, hi−1 |
| BloomDetector.JumpRowsSpec | backend/bloom_detector.py:11-13 | row i is reported iff 1 ≤ i < n and `ndvi[i] − ndvi[i−1] > threshold` (equality excluded); rows ascend; at most n−1 of them; none when n < 2 |
| BloomDetector.DetectBloom | backend/bloom_detector.py:1-15 | the loop returns the dates of exactly those rows, in row order |
| BloomDetector.ThresholdMonotone | backend/bloom_detector.py:12 | the rows at a higher threshold are the rows at a lower threshold, filtered again: an in-order subsequence |
| Helpers.Window | backend/utils/helpers.py:75-77 | the window around i is the clamped slice `values[max(0, i − w//2) : min(n, i + w//2 + 1)]`; it contains `values[i]`, is non-empty, and has at most `2·(w//2)+1` elements |
| Helpers.WindowMean | backend/utils/helpers.py:78 | `np.mean` of the window: the sum of its values over its length, lying between the window's min and max |
| Helpers.Smooth | backend/utils/helpers.py:59-80 | same length; input returned unchanged when shorter than the window; otherwise output i is the mean of the clamped window around i |
| Helpers.SmoothInterior | backend/utils/helpers.py:74-78 | away from the edges the window is the full slice of `2·(w//2)+1` values centred on i, and the output is their sum over that count |
| Helpers.SmoothLeftEdge | backend/utils/helpers.py:75-78 | at index 0 the window is cut short to the first `w//2 + 1` values, and the output is their mean |
| Helpers.SmoothWithinRange | backend/utils/helpers.py:74-78 | every smoothed value lies within the input's min and max |
| Helpers.SmoothConstant | backend/utils/helpers.py:74-78 | a constant series is a fixed point |
| Helpers.SmoothNarrowIsIdentity | backend/utils/helpers.py:75-78 | a window of 0 or 1 changes nothing |
| Helpers.InsertByDate | backend/utils/helpers.py:99 | insertion keeps the series date-sorted and adds exactly the one record |
| Helpers.SortByDate | backend/utils/helpers.py:99 | the sort is date-ordered and a permutation of its input |
| Helpers.SortStable | backend/utils/helpers.py:99 | records sharing a date keep their input order |
| Helpers.Lerp | backend/utils/helpers.py:119 | `cur + (next−cur)·(j/n)` lies between the two neighbour values |
| Helpers.GapPoints | backend/utils/helpers.py:106-125 | nothing is inserted for gaps ≤ 16; otherwise `gap//8 − 1` records dated `cur + 8j`, strictly between the neighbours, interpolated, with values between theirs |
| Helpers.GapPointsEvenlySpaced | backend/utils/helpers.py:117-119 | consecutive inserted values differ by `(next−cur)/n` |
| Helpers.FillGaps | backend/utils/helpers.py:102-125 | the filled series is no shorter and starts with the first record |
| Helpers.FillContents | backend/utils/helpers.py:103-125 | every input record survives, and every added record is interpolated |
| Helpers.FillSorted | backend/utils/helpers.py:102-125 | filling keeps a date-sorted series sorted |
| Helpers.FillDenseUnchanged | backend/utils/helpers.py:112 | when no neighbours are more than 16 days apart, nothing is inserted |
| Helpers.FillKeepsObserved | backend/utils/helpers.py:103-104 | dropping interpolated records gives back the input records, in order |
| Helpers.GapSizes | backend/utils/helpers.py:106-125 | one count per neighbouring pair, the number of records the gap between them receives |
| Helpers.FillComplete | backend/utils/helpers.py:103-125 | every record interpolated between neighbours i and i+1 is in the filled series |
| Helpers.FillSound | backend/utils/helpers.py:103-125 | every record of the filled series is an input record or one interpolated between some pair of neighbours |
| Helpers.FillLength | backend/utils/helpers.py:103-125 | the filled length is the input length plus the sum of the per-gap insertion counts |
| Helpers.InterpolateMissingValues | backend/utils/helpers.py:83-127 | empty in, empty out; the result is date-sorted, contains every input record as often as given, and adds only interpolated records |
| Helpers.InterpolateKeepsObserved | backend/utils/helpers.py:95-104 | the observed records of the result are the input's, sorted stably by date |
| Helpers.InterpolateIsFill | backend/utils/helpers.py:99-125 | the result is the gap fill of the stably date-sorted input: the sort at line 99 followed by the loop at lines 102-125, the composition the completeness, soundness and length lemmas rest on |
| Helpers.InterpolateComplete | backend/utils/helpers.py:99-125 | every record interpolated between neighbours of the sorted input appears in the result |
| Helpers.InterpolateSound | backend/utils/helpers.py:99-125 | every record of the result is an input record or one interpolated between neighbours of the sorted input |
| Helpers.InterpolateLength | backend/utils/helpers.py:99-125 | the result length is the input length plus the insertions of every gap of the sorted input |
| Helpers.DailyGdd | backend/utils/helpers.py:146-147 | a day's GDD is `max(0, (tmin+tmax)/2 − base)`: never negative and never below the excess |
| Helpers.GrowingDegreeDays | backend/utils/helpers.py:130-150 | `min(len tmin, len tmax)` entries, entry i being day i's GDD (zip stops at the shorter list) |
| Helpers.GddAntitoneInBase | backend/utils/helpers.py:147 | a higher base never gives more degree days |
| Helpers.PhenologyStage | backend/utils/helpers.py:179-200 | each stage iff NDVI lies in its band: cuts at 0.2, 0.4, 0.6, 0.75, 0.85 |
| Helpers.StageMonotone | backend/utils/helpers.py:189-200 | a larger NDVI never maps to an earlier stage |
| Helpers.StageOnto | backend/utils/helpers.py:189-200 | every stage is reached by some NDVI |
| Helpers.FormatConfidenceScore | backend/utils/helpers.py:220-239 | each label iff the score lies in its band: cuts at 0.3, 0.5, 0.7, 0.9, inclusive from below |
| Helpers.ConfidenceMonotone | backend/utils/helpers.py:230-239 | a higher score never reads as less confident |
| Helpers.ParseDateRange | backend/utils/helpers.py:256-279 | accepted iff both dates parse and start is not after end (a one-day range is accepted); a parse failure is reported as such |
| Helpers.ValidateCoordinates | backend/utils/helpers.py:242-253 | valid iff abs(lat) ≤ 90 and abs(lon) ≤ 180, the bounds included |
| Helpers.GetSeason | backend/utils/helpers.py:282-310 | for "north": winter iff month is 12, 1 or 2, spring iff 3–5, summer iff 6–8, fall otherwise; for any other hemisphere string: summer iff 12, 1 or 2, fall iff 3–5, winter iff 6–8, spring otherwise |
| Helpers.HemispheresOpposite | backend/utils/helpers.py:293-310 | the southern season is the opposite of the northern one for every month |
| Helpers.SeasonsSpanThreeMonths | backend/utils/helpers.py:293-310 | months 3–5, 6–8 and 9–11 each share a season, which differs from the previous month's |
| Helpers.Group | backend/utils/helpers.py:325-345 | each cell holds exactly the points whose truncated indices are its own, in input order; every point has a cell |
| Helpers.MakeCell | backend/utils/helpers.py:332-351 | the corner is `int(lat/g)·g`, `int(lon/g)·g` of the cell's indices; count is the number of points; avg is the mean of their NDVI values; max is one of those values and bounds them all |
| Helpers.Cells | backend/utils/helpers.py:332-351 | one cell per group, at the corner of its indices, holding that group's points, with count, NDVI mean and attained maximum of those points |
| Helpers.AggregateByRegion | backend/utils/helpers.py:313-353 | fails iff the grid size is 0 and there is a point; otherwise every point is in its cell, each cell sits at the corner `int(lat/g)·g`, `int(lon/g)·g` of its indices and holds exactly its points, its avg is their NDVI mean and its max one of their values bounding every point, with min ≤ avg ≤ max |
| Helpers.SosIndex | backend/utils/helpers.py:360-365 | the first record with ndvi (0 when absent) ≥ threshold, or None iff there is none |
| Helpers.EosIndex | backend/utils/helpers.py:368-374 | the last such record, or None iff there is none |
| Helpers.CalculateSos | backend/utils/helpers.py:357-365 | None iff every record's ndvi (0 when absent) is below the threshold; otherwise the date of a record at or above it with every earlier record below |
| Helpers.CalculateEos | backend/utils/helpers.py:367-374 | None iff every record is below the threshold; otherwise the date of a record at or above it with every later record below |
| Helpers.CalculateLos | backend/utils/helpers.py:377-385 | None iff either end is missing; otherwise sos + los = eos |
| Helpers.SosEosAgree | backend/utils/helpers.py:360-374 | SOS and EOS are both present or both absent, and SOS is at or before EOS |
| Helpers.LosNonNegative | backend/utils/helpers.py:360-385 | on a date-ordered series the length of season exists iff some record reaches the threshold, and it is never negative |
| NasaService.StripDashes | backend/services/nasa_api.py:42-43 | `replace('-', '')`: no dash is left, every other character occurs as often as in the input, and the string never lengthens |
| NasaService.StripDashesAppend | backend/services/nasa_api.py:42-43 | stripping a concatenation strips each part and joins them, so the kept characters stay in their order |
| NasaService.ReformatCompactDate | backend/services/nasa_api.py:59 | two dashes are inserted, after the 4th and 6th characters, with the pieces kept |
| NasaService.StripThenReformat | backend/services/nasa_api.py:42-59 | for a well-formed `YYYY-MM-DD`, stripping gives an 8-digit key that reformats back to the date |
| NasaService.ReformatThenStrip | backend/services/nasa_api.py:42-59 | for an 8-digit key, reformatting gives a well-formed date that strips back to the key |
| NasaService.GddIncrement | backend/services/nasa_api.py:150-152 | the increment is non-negative and positive iff the mean is known and above 10, being then `temp − 10` |
| NasaService.RunningGdd | backend/services/nasa_api.py:143-152 | each day's running total is the previous one plus that day's increment |
| NasaService.CumulativeGdd | backend/services/nasa_api.py:143-152 | the recorded cumulative GDD starts at the first increment and adds one increment per day |
| NasaService.RunningIsPrefixSum | backend/services/nasa_api.py:143-152 | the running total is the start value plus the sum of the increments so far |
| NasaService.CumulativeIsPrefixSum | backend/services/nasa_api.py:143-152 | day i's value is the sum of the first i+1 increments |
| NasaService.CumulativeMonotone | backend/services/nasa_api.py:150-152 | the cumulative GDD is non-negative and never decreases, and it grows from one day to the next iff that day's mean exceeds 10 |
| NasaService.EstimateNdvi | backend/services/nasa_api.py:140-183 | one record per weather day, keeping its date and weather, with NDVI clipped to [0, 1] and the cumulative GDD so far |
| NasaService.DetectOnSeries | backend/services/nasa_api.py:274-321 | insufficient data iff fewer than 3 points; no bloom iff no step exceeds the threshold; a bloom reports the first steep step's date, NDVI and weather, the first maximum, and confidence in (0, 1] |
| NasaService.DetectBloomReal | backend/services/nasa_api.py:266-321 | a fetch failure iff the fetch failed; insufficient data iff fewer than 3 days, an empty fetch included |
| NasaService.DetectBloomRealAsWritten | backend/services/nasa_api.py:218-280 | as written, an empty successful fetch raises and every other input answers like `DetectBloomReal` |
| NasaService.EmptyFetchRaises | backend/services/nasa_api.py:229-280 | on an empty successful fetch, the code as written raises where the corrected form reports insufficient data |
| NasaService.CopiesAgree | backend/services/nasa_api.py:282-305 | this copy of the detector and the one in `backend/app.py` find the same bloom with the same onset, peak and confidence |
| Database.NewRegion | backend/models/database.py:38-45 | a new region keeps its name, bounds and description, is active and holds no events |
| Database.AddToRegion | backend/models/database.py:47-55 | the event is appended iff it lies in the closed bounding box; otherwise the region is unchanged |
| Database.AddToRegionValid | backend/models/database.py:47-55 | adding through the region keeps every held event inside its bounds |
| Database.AddBloomRecord | backend/models/database.py:82-91 | the record is appended to the history and nothing else changes |
| Database.BloomDays | backend/models/database.py:98-101 | one day of the year per record, each between 1 and 366 |
| Database.AverageBloomDay | backend/models/database.py:93-103 | None iff there is no history; otherwise between the smallest and largest recorded day |
| Database.AverageIsFloorDivision | backend/models/database.py:103 | `int(sum/len)` equals the integer floor division of the sum by the count |
| Database.AddBloomEvent | backend/models/database.py:255-261 | the event is appended to the store once and to exactly the regions containing it; the keys and everything else are unchanged |
| Database.AddBloomEventValid | backend/models/database.py:255-261 | adding an event keeps every region's events inside its bounds |
| Database.GetBloomEvents | backend/models/database.py:263-274 | an event is returned iff stored, dated within [start, end] and, when a non-empty known region name is given, inside that region; each as often as stored |
| Database.GetBloomEventsInOrder | backend/models/database.py:263-274 | the answer is the stored list with non-matching events removed, so insertion order is kept |
| Database.GetAfterAdd | backend/models/database.py:255-274 | with or without a region, a newly added event appears last in a query it matches (dated within the range and, when the region applies, inside it), after the earlier answer; a query it does not match is unchanged |
| Database.AddVegetationIndex | backend/models/database.py:276-278 | the measurement is appended and nothing else changes |
| Database.GetVegetationIndices | backend/models/database.py:280-287 | a measurement is returned iff it is stored, within the tolerance of the point on both axes, and dated within the range; each as often as stored |
| Database.VegetationAfterAdd | backend/models/database.py:276-287 | a new measurement joins the end of every answer it matches and leaves other answers unchanged, so answers keep insertion order |
| Database.DefaultQueryFindsPoint | backend/models/database.py:280-287 | with the default tolerance of 0.1 degrees, a stored measurement at the queried point and dated within the range is found |
| Database.GetVegetationIndicesComplete | backend/models/database.py:284-287 | every matching stored measurement is returned, as often as stored |
| Database.AddRegion | backend/models/database.py:289-291 | the region is stored under its name, replacing any other of that name; other regions are unchanged |
| Database.GetRegion | backend/models/database.py:293-295 | the region stored under the name, or None iff there is none |
| Database.AddThenGetRegion | backend/models/database.py:289-295 | an added region is found under its name, other names are unaffected, and a valid region keeps the store valid |
| Database.SpeciesKey | backend/models/database.py:299 | the key has the name's length, no spaces and no upper-case letters; each character is lower-cased, with a space becoming `_` |
| Database.SpeciesKeyIdempotent | backend/models/database.py:299 | keying a key changes nothing |
| Database.AddSpecies | backend/models/database.py:297-299 | the species is stored under its key, and no other entry changes |
| Database.GetSpecies | backend/models/database.py:301-303 | the species stored under the name, or None iff there is none |
| Database.AddThenGetSpecies | backend/models/database.py:297-303 | an added species is found under its key, and other names are unaffected |
| Database.AddAlert | backend/models/database.py:305-307 | the alert is appended and nothing else changes |
| Database.GetUserAlerts | backend/models/database.py:309-311 | exactly the user's alerts, each as often as stored |
| Database.AlertsAfterAdd | backend/models/database.py:305-311 | a new alert is appended to its own user's list and to no one else's |
| Database.InitialStore | backend/models/database.py:182-252 | the store starts with no events, measurements or alerts, with three regions and two species, and every region valid |
| Database.DefaultSpeciesConsistent | backend/models/database.py:228-252 | the default species sit under the keys `add_species` would give them, and each bloom duration is a range of positive days |
| Database.DefaultDurationAsWritten | backend/models/database.py:237 | as written, `duration_days` exists for exactly the two default species |
| Database.DurationAsWrittenIsNegative | backend/models/database.py:237-249 | `7-10` and `14-21` evaluate to negative integers, the low end minus the high end of the intended range |

## Left out

- Flask routing, CORS, JSON shaping, `to_dict`, and turning exceptions into HTTP 400 responses. These are transport plumbing. An exception is modelled as an error value where the model needs one.
- The HTTP calls to NASA POWER and EONET, including `fetch_earth_events`. A weather fetch is its outcome: None for a failure or a response without data.
- Randomness:
  - the Gaussian noise of the mock generator and of `estimate_ndvi_from_weather`;
  - the random history of the predict endpoint;
  - all of `backend/nasa_api.py`, which is only random numbers.
- Transcendental and floating-point numerics: the `exp` seasonal, temperature and precipitation factors; haversine `calculate_distance`; z-score `detect_outliers`; `np.arange` grids in `generate_grid_points` and the bloom map; every `round(x, k)`. The per-sample NDVI is a parameter (`sampleAt`, `ndviAt`) instead. Reals are exact, so float rounding is not modelled.
- MD5 `generate_event_id`, the `datetime.utcnow()` timestamps, and `UserAlert.trigger`, which only records the clock; `print` logging.
- The static `get_bloom_calendar` dictionary, and the grid loop of the bloom map. Only its status rule (`App.BloomStatus`, `App.MapPoint`) is modelled.
- `fetch_vegetation_indices_real`'s statistics and weather summary. Only the failure its `np.max` causes on an empty series is modelled.
- App.DetectBloomFromNdvi: the threshold is a non-negative parameter, not `1.5 * np.std(np.diff(ndvi))`. The square root is not modelled.
- NasaService.DetectOnSeries: the threshold is a parameter in the same way.
- BloomDetector.DetectBloom: the threshold is a parameter with no default, instead of `0.15`.
- App.PredictBloomWindow:
  - `int(np.std)` is the exact integer square root of the exact variance, not of a float;
  - the current year is a parameter, because it comes from the clock;
  - dates past year 9999, where `datetime` overflows, are not modelled;
  - the unused `lat` and `lon` are dropped;
  - the `else 7` branch is dropped, because the length check above it makes it dead.
- App.VegetationIndices: the default dates from the clock are not modelled. Dates arrive already parsed, with None meaning `strptime` rejected them.
- Helpers.ParseDateRange: both failures raise `ValueError` with the prefix "Invalid date format" in the source. The model distinguishes the two.
- Helpers.Smooth: the window size is a natural number. A negative `window_size` is not modelled; Python would pass the length check and, for some sizes, divide by zero.
- Helpers.AggregateByRegion:
  - cells are keyed by the pair of truncated indices rather than the `"%.2f_%.2f"` string of their corner, which can merge neighbouring cells for very small grid sizes;
  - cells whose first point has no `ndvi` get no averages in the source; every point here has an NDVI.
- Helpers.CalculateLos: it works on the optional day numbers rather than re-parsing date strings.
- Database.AverageBloomDay: bloom dates are valid calendar dates. A record whose date string `strptime` rejects is not modelled.
- Database.SpeciesKey: lower-casing covers ASCII letters only, not all of Unicode.
- App.YearGridHas46: for year 9999 the source's loop raises `OverflowError` when it steps past 9999-12-31, and for years 1 to 999 the endpoint's `f"{year}-01-01"` has fewer than four year digits, which `strptime`'s `%Y` rejects before any grid exists; the lemma counts the dates of the grid itself for every year from 1 to 9999.
- Helpers.CalculateSos: a record whose `ndvi` key holds None raises `TypeError` at the comparison in the source; the model has no such record and reads a missing NDVI as 0, as `item.get('ndvi', 0)` does for an absent key.
- Helpers.CalculateEos: the same None record raises `TypeError` in the reversed scan; it is not modelled either.
- Database.GetBloomEvents: dates are day numbers, while the source compares the stored date strings; the two orders agree only for zero-padded `YYYY-MM-DD` strings with four-digit years, and other strings are not modelled.
- Database.GetVegetationIndices: the same step from date strings to day numbers applies to the range test.
- Helpers.FillGaps: its own contract states only the length bound and the first record; which records are inserted, and nothing else, is stated by Helpers.FillComplete, Helpers.FillSound and Helpers.FillLength.
- Helpers.InterpolateMissingValues:
  - its own contract states sortedness and the kept records; the inserted records are stated by Helpers.InterpolateComplete, Helpers.InterpolateSound and Helpers.InterpolateLength;
  - every record has a real value, and the `value_key` parameter is fixed to `ndvi`; a record neighbouring a gap of more than 16 days with a missing or None value raises `KeyError` or `TypeError` in the source, which is not modelled;
  - records are sorted by day number, while the source sorts the date strings; the two agree for zero-padded ISO dates only, and a date such as `2024-1-5` is not modelled.
- Database.AddBloomEvent: regions are values. In Python a `Region` object stored under two keys would receive the event twice.

## Findings

| source | as written | input that shows it | evidently intended | confidence | as-written member | corrected member |
|---|---|---|---|---|---|---|
| backend/models/database.py:237 | `'duration_days': 7-10` (and `14-21` at line 249) is integer subtraction, so the default species store -3 and -7 | the characteristics of the default `cherry_blossom` and `tulip` species | a duration range of 7 to 10 (and 14 to 21) days, the string `'7-10'` of the bloom calendar in backend/app.py:314 | high; not executed | Database.DurationAsWrittenIsNegative | Database.DefaultSpeciesConsistent |
| backend/services/nasa_api.py:230 | `fetch_vegetation_indices_real` takes `np.max` of the NDVI values, which raises on an empty array, before `detect_bloom_real` reaches its length check at line 276 | a successful POWER response with no days | the 'Insufficient data points' answer that the check at line 276 gives for 1 or 2 days | medium; not executed | NasaService.EmptyFetchRaises | NasaService.DetectBloomReal |

=== FILE: app.dfy ===
/** backend/app.py: the demo API's pure logic. The 8-day date grid of the mock
    generator, the vegetation-statistics endpoint's validation order, the
    derivative-threshold bloom detector, the bloom-window prediction from past
    bloom days, the bloom-map status rule and the index logic of the phenology
    metrics endpoint.

    Dates are day numbers (`Calendar.Ordinal`); the random noise of the mock
    generator is a parameter (`sampleAt`), as is the detector's threshold. */
module App {
  import opened Common
  import opened Calendar
  import opened Derivative
  import Helpers

  /** `BLOOM_THRESHOLD_NDVI`. */
  const BloomThresholdNdvi: real := 0.6

  /** Days between two MODIS composites. */
  const CompositeDays: int := 8

  // =====================================================================
  // The date grid of generate_mock_ndvi_data
  // =====================================================================

  /** The dates `start, start + 8, ...` up to and including `end`: the
      `while current <= end` loop of the mock generator. */
  function DateGrid(start: int, end: int): (r: seq<int>)
    ensures end < start ==> r == []
    ensures start <= end ==> |r| == (end - start) / CompositeDays + 1
    ensures forall i :: 0 <= i < |r| ==> r[i] == start + CompositeDays * i
    ensures forall i :: 0 <= i < |r| ==> start <= r[i] <= end
    ensures |r| > 0 ==> r[|r| - 1] + CompositeDays > end
    decreases if end < start then 0 else end - start + 1
  {
    if end < start then []
    else
      var rest := DateGrid(start + CompositeDays, end);
      assert forall i :: 1 <= i < |rest| + 1 ==> ([start] + rest)[i] == rest[i - 1];
      [start] + rest
  }

  /** Every date on the 8-day cadence between `start` and `end` is on the grid. */
  lemma {:induction false} DateGridCovers(start: int, end: int, d: int)
    requires start <= d <= end && (d - start) % CompositeDays == 0
    ensures d in DateGrid(start, end)
  {
    var r := DateGrid(start, end);
    var i := (d - start) / CompositeDays;
    assert d == start + CompositeDays * i;
    assert i <= (end - start) / CompositeDays;
    assert r[i] == d;
  }

  /** A calendar year's grid, January 1st to December 31st as the phenology
      endpoint requests it, has 46 composites in leap and common years alike. */
  lemma YearGridHas46(year: int)
    requires 1 <= year <= 9999
    ensures |DateGrid(Ordinal(CalendarDate(year, 1, 1)), Ordinal(CalendarDate(year, 12, 31)))| == 46
  {
    var first := Ordinal(CalendarDate(year, 1, 1));
    var last := Ordinal(CalendarDate(year, 12, 31));
    assert last - first == DaysInYear(year) - 1;
  }

  // =====================================================================
  // get_vegetation_indices
  // =====================================================================

  datatype Sample = Sample(date: int, ndvi: real)

  /** `np.clip(x, 0, 1)`. */
  function Clip01(x: real): (r: real)
    ensures 0.0 <= r <= 1.0
    ensures 0.0 <= x <= 1.0 ==> r == x
    ensures x < 0.0 ==> r == 0.0
    ensures x > 1.0 ==> r == 1.0
  {
    if x < 0.0 then 0.0 else if x > 1.0 then 1.0 else x
  }

  /** The mock series: one clipped sample per grid date; `sampleAt` stands for
      the seasonal curve plus noise, which this model does not compute. */
  function MockSeries(start: int, end: int, sampleAt: int -> real): (r: seq<Sample>)
    ensures |r| == |DateGrid(start, end)|
    ensures forall i :: 0 <= i < |r| ==> r[i].date == DateGrid(start, end)[i]
    ensures forall i :: 0 <= i < |r| ==> r[i].ndvi == Clip01(sampleAt(r[i].date))
  {
    var grid := DateGrid(start, end);
    seq(|grid|, i requires 0 <= i < |grid| => Sample(grid[i], Clip01(sampleAt(grid[i]))))
  }

  function Ndvis(series: seq<Sample>): (v: seq<real>)
    ensures |v| == |series|
    ensures forall i :: 0 <= i < |series| ==> v[i] == series[i].ndvi
  {
    seq(|series|, i requires 0 <= i < |series| => series[i].ndvi)
  }

  datatype IndicesError = InvalidCoordinates | InvalidDate | DateOverflow | EmptySeries

  datatype Statistics = Statistics(meanNdvi: real, maxNdvi: real, minNdvi: real, dataPoints: nat,
                                   data: seq<Sample>)

  /** The statistics block of the response: mean, max and min of the clipped
      samples, and their count. */
  function Summarize(data: seq<Sample>): (s: Statistics)
    requires |data| > 0
    requires forall i :: 0 <= i < |data| ==> 0.0 <= data[i].ndvi <= 1.0
    ensures s.data == data && s.dataPoints == |data|
    ensures s.meanNdvi == Mean(Ndvis(data))
    ensures s.maxNdvi in Ndvis(data) && s.minNdvi in Ndvis(data)
    ensures 0.0 <= s.minNdvi <= s.meanNdvi <= s.maxNdvi <= 1.0
    ensures forall i :: 0 <= i < |data| ==> s.minNdvi <= data[i].ndvi <= s.maxNdvi
  {
    var v := Ndvis(data);
    MeanWithin(v, MinOf(v), MaxOf(v));
    assert MinOf(v) in v && MaxOf(v) in v;
    Statistics(Mean(v), MaxOf(v), MinOf(v), |data|, data)
  }

  /** The vegetation-indices endpoint. The coordinate check comes first and
      wins over every other failure; a date that does not parse comes next
      (`strptime` raises); the 8-day loop then raises `OverflowError` when the
      step after its last date would pass 9999-12-31; an end before the start
      gives an empty series, on which `np.max` raises. */
  function VegetationIndices(lat: real, lon: real, start: Option<Date>, end: Option<Date>,
                             sampleAt: int -> real): (r: Result<Statistics, IndicesError>)
    ensures r == Err(InvalidCoordinates) <==> !Helpers.ValidateCoordinates(lat, lon)
    ensures r == Err(InvalidDate) <==>
      Helpers.ValidateCoordinates(lat, lon) && (start.None? || end.None?)
    ensures r == Err(DateOverflow) <==>
      Helpers.ValidateCoordinates(lat, lon) && start.Some? && end.Some?
      && Ordinal(start.value) <= Ordinal(end.value)
      && Ordinal(start.value)
         + CompositeDays * ((Ordinal(end.value) - Ordinal(start.value)) / CompositeDays + 1) > MaxOrdinal
    ensures r == Err(EmptySeries) <==>
      Helpers.ValidateCoordinates(lat, lon) && start.Some? && end.Some?
      && Ordinal(end.value) < Ordinal(start.value)
    ensures r.Ok? ==> r.value.data == MockSeries(Ordinal(start.value), Ordinal(end.value), sampleAt)
    ensures r.Ok? ==> r.value.dataPoints == |r.value.data| > 0
    ensures r.Ok? ==> r.value.dataPoints == (Ordinal(end.value) - Ordinal(start.value)) / CompositeDays + 1
    ensures r.Ok? ==> r.value.meanNdvi == Mean(Ndvis(r.value.data))
    ensures r.Ok? ==> r.value.maxNdvi in Ndvis(r.value.data) && r.value.minNdvi in Ndvis(r.value.data)
    ensures r.Ok? ==>
      0.0 <= r.value.minNdvi <= r.value.meanNdvi <= r.value.maxNdvi <= 1.0
    ensures r.Ok? ==> forall i :: 0 <= i < |r.value.data| ==>
      r.value.minNdvi <= r.value.data[i].ndvi <= r.value.maxNdvi
  {
    if !(-90.0 <= lat <= 90.0 && -180.0 <= lon <= 180.0) then Err(InvalidCoordinates)
    else if start.None? || end.None? then Err(InvalidDate)
    else
      var data := MockSeries(Ordinal(start.value), Ordinal(end.value), sampleAt);
      if |data| > 0 && data[|data| - 1].date + CompositeDays > MaxOrdinal then Err(DateOverflow)
      else if |data| == 0 then Err(EmptySeries)
      else Ok(Summarize(data))
  }

  // =====================================================================
  // detect_bloom_from_ndvi
  // =====================================================================

  datatype BloomEvent = BloomEvent(onsetDate: int, onsetNdvi: real, peakDate: int, peakNdvi: real,
                                   confidence: real)

  /** `detect_bloom_from_ndvi`, with the threshold (`1.5 * np.std` of the
      differences, never negative) as a parameter. */
  function DetectBloomFromNdvi(series: seq<Sample>, threshold: real): (r: Option<BloomEvent>)
    requires 0.0 <= threshold
    ensures |series| < 3 ==> r.None?
    ensures |series| >= 3 ==>
      (r.None? <==> forall i :: 0 <= i < |series| - 1 ==> Step(Ndvis(series), i) <= threshold)
    ensures r.Some? ==> exists i :: (IsOnset(Ndvis(series), i, threshold)
      && r.value.onsetDate == series[i].date && r.value.onsetNdvi == series[i].ndvi
      && r.value.confidence == MinReal(10.0 * Step(Ndvis(series), i), 1.0))
    ensures r.Some? ==> exists k :: (IsFirstMax(Ndvis(series), k)
      && r.value.peakDate == series[k].date && r.value.peakNdvi == series[k].ndvi)
    ensures r.Some? ==> r.value.onsetNdvi <= r.value.peakNdvi
    ensures r.Some? ==> 0.0 < r.value.confidence <= 1.0
  {
    if |series| < 3 then None
    else
      match RapidRise(Ndvis(series), threshold)
      case None => None
      case Some(rise) =>
        Some(BloomEvent(series[rise.onset].date, series[rise.onset].ndvi,
                        series[rise.peak].date, series[rise.peak].ndvi, rise.confidence))
  }

  // =====================================================================
  // predict_bloom_window
  // =====================================================================

  /** Largest k with k * k <= v, searching upward from `k`. */
  function FloorSqrtFrom(v: real, k: nat): (r: nat)
    requires (k * k) as real <= v
    ensures (r * r) as real <= v < ((r + 1) * (r + 1)) as real
    decreases v.Floor - k
  {
    if v < ((k + 1) * (k + 1)) as real then k
    else
      assert k + 1 <= (k + 1) * (k + 1);
      FloorSqrtFrom(v, k + 1)
  }

  /** `int(math.sqrt(v))` for v >= 0, in exact arithmetic. */
  function FloorSqrt(v: real): (r: nat)
    requires 0.0 <= v
    ensures (r * r) as real <= v < ((r + 1) * (r + 1)) as real
  {
    FloorSqrtFrom(v, 0)
  }

  function Squares(xs: seq<real>, m: real): (r: seq<real>)
    ensures |r| == |xs|
    ensures forall i :: 0 <= i < |xs| ==> r[i] == (xs[i] - m) * (xs[i] - m)
    ensures forall i :: 0 <= i < |xs| ==> 0.0 <= r[i]
  {
    seq(|xs|, i requires 0 <= i < |xs| => (xs[i] - m) * (xs[i] - m))
  }

  /** Population variance (`np.var`, the square of `np.std`). */
  function Variance(xs: seq<real>): (v: real)
    requires |xs| > 0
    ensures 0.0 <= v
  {
    var sq := Squares(xs, Mean(xs));
    MeanWithin(sq, 0.0, MaxOf(sq));
    Mean(sq)
  }

  datatype WindowConfidence = High | Medium | Low

  /** The three-level label: high below 7 days of spread, medium below 14. */
  function WindowLabel(std: int): (c: WindowConfidence)
    ensures c == High <==> std < 7
    ensures c == Medium <==> 7 <= std < 14
    ensures c == Low <==> 14 <= std
  {
    if std < 7 then High else if std < 14 then Medium else Low
  }

  datatype Prediction = Prediction(predicted: int, confidence: WindowConfidence,
                                   windowStart: int, windowEnd: int, variabilityDays: nat)

  /** `predict_bloom_window`: `days` are the past bloom days of the year and
      `year` is the current year (a clock reading). The predicted date is
      `avg - 1` days after January 1st, with `avg` the mean truncated toward
      zero and the window the truncated standard deviation either side. */
  function PredictBloomWindow(days: seq<int>, year: int): (r: Option<Prediction>)
    requires 1 <= year <= 9999
    ensures r.None? <==> |days| < 2
    ensures r.Some? ==>
      r.value.predicted == Ordinal(CalendarDate(year, 1, 1)) + Trunc(Mean(AsReals(days))) - 1
    ensures r.Some? ==>
      (r.value.variabilityDays * r.value.variabilityDays) as real <= Variance(AsReals(days))
      < ((r.value.variabilityDays + 1) * (r.value.variabilityDays + 1)) as real
    ensures r.Some? ==> r.value.windowStart == r.value.predicted - r.value.variabilityDays
    ensures r.Some? ==> r.value.windowEnd == r.value.predicted + r.value.variabilityDays
    ensures r.Some? ==> r.value.windowStart <= r.value.predicted <= r.value.windowEnd
    ensures r.Some? ==> (r.value.confidence == High <==> r.value.variabilityDays < 7)
    ensures r.Some? ==> (r.value.confidence == Medium <==> 7 <= r.value.variabilityDays < 14)
    ensures r.Some? ==> (r.value.confidence == Low <==> 14 <= r.value.variabilityDays)
  {
    if |days| < 2 then None
    else
      var xs := AsReals(days);
      var avg := Trunc(Mean(xs));
      var std := FloorSqrt(Variance(xs));
      var predicted := Ordinal(CalendarDate(year, 1, 1)) + avg - 1;
      Some(Prediction(predicted, WindowLabel(std), predicted - std, predicted + std, std))
  }

  /** When every past bloom day lies in [lo, hi] (day-of-year values are
      positive), the predicted date lies in the same span of the current year:
      truncation cannot leave the range of the history. */
  lemma PredictionWithinHistory(days: seq<int>, year: int, lo: nat, hi: int)
    requires 1 <= year <= 9999 && |days| >= 2
    requires forall i :: 0 <= i < |days| ==> lo <= days[i] <= hi
    ensures var jan1 := Ordinal(CalendarDate(year, 1, 1));
      jan1 + lo - 1 <= PredictBloomWindow(days, year).value.predicted <= jan1 + hi - 1
  {
    var xs := AsReals(days);
    MeanWithin(xs, lo as real, hi as real);
  }

  /** Identical bloom days give a zero-width window labelled high, centred on
      that day. */
  lemma ConstantHistoryIsCertain(days: seq<int>, year: int, d: nat)
    requires 1 <= year <= 9999 && |days| >= 2
    requires forall i :: 0 <= i < |days| ==> days[i] == d
    ensures PredictBloomWindow(days, year).value.variabilityDays == 0
    ensures PredictBloomWindow(days, year).value.confidence == High
    ensures PredictBloomWindow(days, year).value.predicted == Ordinal(CalendarDate(year, 1, 1)) + d - 1
  {
    var xs := AsReals(days);
    MeanWithin(xs, d as real, d as real);
    var sq := Squares(xs, Mean(xs));
    MeanWithin(sq, 0.0, 0.0);
  }

  // =====================================================================
  // get_bloom_map status rule
  // =====================================================================

  datatype MapStatus = Dormant | Vegetated | Blooming

  function MapStatusRank(s: MapStatus): nat
  {
    match s
    case Dormant => 0
    case Vegetated => 1
    case Blooming => 2
  }

  /** The status of a grid point from its mean recent NDVI. */
  function BloomStatus(avgNdvi: real): (s: MapStatus)
    ensures s == Blooming <==> avgNdvi > BloomThresholdNdvi
    ensures s == Vegetated <==> 0.3 < avgNdvi <= BloomThresholdNdvi
    ensures s == Dormant <==> avgNdvi <= 0.3
  {
    if avgNdvi > BloomThresholdNdvi then Blooming else if avgNdvi > 0.3 then Vegetated else Dormant
  }

  /** A greener point never has a lower status. */
  lemma BloomStatusMonotone(a: real, b: real)
    requires a <= b
    ensures MapStatusRank(BloomStatus(a)) <= MapStatusRank(BloomStatus(b))
  {
  }

  /** One grid point of the bloom map: a point whose recent series is empty is
      skipped (`if recent_data`), otherwise it gets the status of its mean. */
  function MapPoint(recent: seq<Sample>): (r: Option<MapStatus>)
    ensures r.None? <==> |recent| == 0
    ensures r.Some? ==> r.value == BloomStatus(Mean(Ndvis(recent)))
    ensures r == Some(Blooming) ==> exists i :: 0 <= i < |recent| && recent[i].ndvi > BloomThresholdNdvi
  {
    if |recent| == 0 then None
    else
      var v := Ndvis(recent);
      MeanWithin(v, MinOf(v), MaxOf(v));
      assert MaxOf(v) in v;
      Some(BloomStatus(Mean(v)))
  }

  // =====================================================================
  // calculate_phenology: greenup, peak and senescence indices
  // =====================================================================

  /** NDVI at which the canopy counts as green. */
  const GreenNdvi: real := 0.4

  /** First index from `from` on whose value exceeds `GreenNdvi`. */
  function FirstGreen(v: seq<real>, from: nat): (r: Option<nat>)
    requires from <= |v|
    ensures r.Some? ==> from <= r.value < |v| && v[r.value] > GreenNdvi
    ensures r.Some? ==> forall j :: from <= j < r.value ==> v[j] <= GreenNdvi
    ensures r.None? <==> forall j :: from <= j < |v| ==> v[j] <= GreenNdvi
    decreases |v| - from
  {
    if from == |v| then None
    else if v[from] > GreenNdvi then Some(from)
    else FirstGreen(v, from + 1)
  }

  /** First index from `from` on whose value falls below `GreenNdvi`. */
  function FirstBrown(v: seq<real>, from: nat): (r: Option<nat>)
    requires from <= |v|
    ensures r.Some? ==> from <= r.value < |v| && v[r.value] < GreenNdvi
    ensures r.Some? ==> forall j :: from <= j < r.value ==> v[j] >= GreenNdvi
    ensures r.None? <==> forall j :: from <= j < |v| ==> v[j] >= GreenNdvi
    decreases |v| - from
  {
    if from == |v| then None
    else if v[from] < GreenNdvi then Some(from)
    else FirstBrown(v, from + 1)
  }

  datatype PhenologyMetrics = PhenologyMetrics(greenup: nat, peak: nat, senescence: nat,
                                               maxNdvi: real, seasonLengthDays: int)

  /** The metrics of `calculate_phenology`: greenup is the first index above
      0.4 (0 when none is), the peak is the first maximum, senescence is the
      first index at or after the peak below 0.4 (the last index when none is)
      and the season length is eight days per index between them. An empty
      series has no maximum (`np.argmax` raises). */
  function PhenologyIndices(v: seq<real>): (r: Option<PhenologyMetrics>)
    ensures r.None? <==> |v| == 0
    ensures r.Some? ==> r.value.peak == ArgMax(v) && r.value.maxNdvi == MaxOf(v)
    ensures r.Some? ==> r.value.greenup < |v| && r.value.senescence < |v|
    ensures r.Some? ==> r.value.greenup <= r.value.peak <= r.value.senescence
    ensures r.Some? ==> forall j :: 0 <= j < r.value.greenup ==> v[j] <= GreenNdvi
    ensures r.Some? && (exists j :: 0 <= j < |v| && v[j] > GreenNdvi) ==> v[r.value.greenup] > GreenNdvi
    ensures r.Some? && (forall j :: 0 <= j < |v| ==> v[j] <= GreenNdvi) ==> r.value.greenup == 0
    ensures r.Some? ==> forall j :: r.value.peak <= j < r.value.senescence ==> v[j] >= GreenNdvi
    ensures r.Some? && (exists j :: r.value.peak <= j < |v| && v[j] < GreenNdvi) ==>
      v[r.value.senescence] < GreenNdvi
    ensures r.Some? && (forall j :: r.value.peak <= j < |v| ==> v[j] >= GreenNdvi) ==>
      r.value.senescence == |v| - 1
    ensures r.Some? ==> r.value.seasonLengthDays == (r.value.senescence - r.value.greenup) * CompositeDays
  {
    if |v| == 0 then None
    else
      var peak := ArgMax(v);
      var greenup := match FirstGreen(v, 0) case Some(i) => i case None => 0;
      var senescence := match FirstBrown(v, peak) case Some(i) => i case None => |v| - 1;
      assert greenup <= peak by {
        if FirstGreen(v, 0).Some? {
          assert v[peak] >= v[greenup];
        }
      }
      Some(PhenologyMetrics(greenup, peak, senescence, MaxOf(v), (senescence - greenup) * CompositeDays))
  }

  /** The stages come in order, greenup <= peak <= senescence, so the season
      length is never negative. */
  lemma PhenologyOrdered(v: seq<real>)
    requires |v| > 0
    ensures var m := PhenologyIndices(v).value;
      m.greenup <= m.peak <= m.senescence && m.seasonLengthDays >= 0
  {
  }
}

=== FILE: bloom_detector.dfy ===
/** backend/bloom_detector.py: the dates on which NDVI rose by more than a
    threshold over the previous row. The DataFrame is modelled as its two
    columns, `Date` and `NDVI`, given as parallel sequences. */
module BloomDetector {
  import opened Common

  /** The integers lo, lo + 1, ..., hi - 1 (Python's `range(lo, hi)`). */
  function Range(lo: int, hi: int): (r: seq<int>)
    ensures |r| == MaxInt(0, hi - lo)
    ensures forall k :: 0 <= k < |r| ==> r[k] == lo + k
  {
    if hi <= lo then [] else seq(hi - lo, k requires 0 <= k < hi - lo => lo + k)
  }

  /** Row `i` jumped: it is not the first row and its NDVI exceeds the
      previous row's by strictly more than the threshold. */
  function IsJump(ndvi: seq<real>, threshold: real): int -> bool
  {
    i => 1 <= i < |ndvi| && ndvi[i] - ndvi[i - 1] > threshold
  }

  /** The rows the detector reports, in increasing order. */
  function JumpRows(ndvi: seq<real>, threshold: real): seq<int>
  {
    Filter(Range(1, |ndvi|), IsJump(ndvi, threshold))
  }

  /** The dates of the given rows, in the order of the rows. */
  function Pick<D>(dates: seq<D>, rows: seq<int>): (r: seq<D>)
    requires forall k :: 0 <= k < |rows| ==> 0 <= rows[k] < |dates|
    ensures |r| == |rows|
    ensures forall k :: 0 <= k < |rows| ==> r[k] == dates[rows[k]]
  {
    seq(|rows|, k requires 0 <= k < |rows| => dates[rows[k]])
  }

  ghost predicate StrictlyIncreasing(s: seq<int>)
  {
    forall i, j :: 0 <= i < j < |s| ==> s[i] < s[j]
  }

  lemma {:induction false} FilterKeepsIncreasing(s: seq<int>, p: int -> bool)
    requires StrictlyIncreasing(s)
    ensures StrictlyIncreasing(Filter(s, p))
  {
    if |s| > 0 {
      FilterKeepsIncreasing(s[1..], p);
      FilterMembers(s[1..], p);
      var rest := Filter(s[1..], p);
      forall k | 0 <= k < |rest|
        ensures s[0] < rest[k]
      {
        assert rest[k] in rest;
        var j :| 0 <= j < |s[1..]| && s[1..][j] == rest[k];
        assert s[j + 1] == rest[k];
      }
    }
  }

  /** What the detector reports, independently of the loop: row `i` is
      reported iff it is a later row whose rise exceeds the threshold (strictly:
      a rise equal to the threshold is not reported); rows come in increasing
      order, row 0 is never among them, and there are at most n - 1. */
  lemma JumpRowsSpec(ndvi: seq<real>, threshold: real)
    ensures forall i :: i in JumpRows(ndvi, threshold) <==>
      1 <= i < |ndvi| && ndvi[i] - ndvi[i - 1] > threshold
    ensures StrictlyIncreasing(JumpRows(ndvi, threshold))
    ensures |JumpRows(ndvi, threshold)| <= MaxInt(0, |ndvi| - 1)
    ensures |ndvi| < 2 ==> JumpRows(ndvi, threshold) == []
  {
    var rows := Range(1, |ndvi|);
    FilterMembers(rows, IsJump(ndvi, threshold));
    forall i
      ensures i in JumpRows(ndvi, threshold) <==> 1 <= i < |ndvi| && ndvi[i] - ndvi[i - 1] > threshold
    {
      if 1 <= i < |ndvi| {
        assert rows[i - 1] == i;
      }
      assert i in JumpRows(ndvi, threshold) <==> i in rows && IsJump(ndvi, threshold)(i);
    }
    FilterKeepsIncreasing(rows, IsJump(ndvi, threshold));
  }

  /** The reported rows below `i`: the detector's result after its loop has
      looked at rows 1 to i - 1. */
  function RowsBelow(ndvi: seq<real>, threshold: real, i: int): seq<int>
  {
    Filter(Range(1, i), IsJump(ndvi, threshold))
  }

  /** One more iteration of the loop appends row `i` exactly when it jumped. */
  lemma RowsBelowStep(ndvi: seq<real>, threshold: real, i: int)
    requires 1 <= i < |ndvi|
    ensures RowsBelow(ndvi, threshold, i + 1) ==
      RowsBelow(ndvi, threshold, i) + (if ndvi[i] - ndvi[i - 1] > threshold then [i] else [])
  {
    assert Range(1, i + 1) == Range(1, i) + [i];
    FilterAppend(Range(1, i), [i], IsJump(ndvi, threshold));
    assert [i][1..] == [];
  }

  /** The reported rows below `i` are indices 1 to i - 1. */
  lemma RowsBelowBounded(ndvi: seq<real>, threshold: real, i: int)
    ensures forall k :: 0 <= k < |RowsBelow(ndvi, threshold, i)| ==>
      1 <= RowsBelow(ndvi, threshold, i)[k] < i
  {
    var rows := RowsBelow(ndvi, threshold, i);
    FilterMembers(Range(1, i), IsJump(ndvi, threshold));
    forall k | 0 <= k < |rows|
      ensures 1 <= rows[k] < i
    {
      assert rows[k] in rows;
    }
  }

  lemma PickAppend<D>(dates: seq<D>, rows: seq<int>, more: seq<int>)
    requires forall k :: 0 <= k < |rows| ==> 0 <= rows[k] < |dates|
    requires forall k :: 0 <= k < |more| ==> 0 <= more[k] < |dates|
    ensures forall k :: 0 <= k < |rows + more| ==> 0 <= (rows + more)[k] < |dates|
    ensures Pick(dates, rows + more) == Pick(dates, rows) + Pick(dates, more)
  {
  }

  /** `detect_bloom`: walk rows 1 to n - 1 and collect the date of every row
      whose NDVI jump over the previous row exceeds the threshold. The result is
      the dates of `JumpRows`, whose meaning `JumpRowsSpec` states. */
  method DetectBloom<D>(dates: seq<D>, ndvi: seq<real>, threshold: real) returns (bloomDates: seq<D>)
    requires |dates| == |ndvi|
    ensures forall k :: 0 <= k < |JumpRows(ndvi, threshold)| ==>
      0 < JumpRows(ndvi, threshold)[k] < |dates|
    ensures bloomDates == Pick(dates, JumpRows(ndvi, threshold))
    ensures |bloomDates| <= MaxInt(0, |ndvi| - 1)
  {
    RowsBelowBounded(ndvi, threshold, |ndvi|);
    JumpRowsSpec(ndvi, threshold);
    bloomDates := [];
    var i := 1;
    while i < |ndvi|
      invariant 1 <= i <= MaxInt(1, |ndvi|)
      invariant forall k :: 0 <= k < |RowsBelow(ndvi, threshold, i)| ==>
        1 <= RowsBelow(ndvi, threshold, i)[k] < i
      invariant bloomDates == Pick(dates, RowsBelow(ndvi, threshold, i))
    {
      RowsBelowStep(ndvi, threshold, i);
      RowsBelowBounded(ndvi, threshold, i + 1);
      var more: seq<int> := if ndvi[i] - ndvi[i - 1] > threshold then [i] else [];
      PickAppend(dates, RowsBelow(ndvi, threshold, i), more);
      if ndvi[i] - ndvi[i - 1] > threshold {
        bloomDates := bloomDates + [dates[i]];
      }
      i := i + 1;
    }
    assert Range(1, i) == Range(1, |ndvi|);
  }

  /** Raising the threshold keeps only some of the rows reported at the lower
      threshold, in the same order: the stricter result is a subsequence. */
  lemma ThresholdMonotone(ndvi: seq<real>, low: real, high: real)
    requires low <= high
    ensures JumpRows(ndvi, high) == Filter(JumpRows(ndvi, low), IsJump(ndvi, high))
  {
    FilterStronger(Range(1, |ndvi|), IsJump(ndvi, low), IsJump(ndvi, high));
  }
}

=== FILE: calendar.dfy ===
/** Proleptic Gregorian calendar arithmetic as Python's `datetime` performs it:
    leap years, month lengths, the day of the year (`timetuple().tm_yday`) and
    the day ordinal (`date.toordinal()`). The ordinal is what lets the rest of
    the model treat dates as integer day numbers: subtracting two `datetime`s
    and taking `.days` is subtracting ordinals, and adding a `timedelta(days=k)`
    is adding k. */
module Calendar {

  /** Gregorian leap-year rule. */
  predicate IsLeapYear(year: int)
  {
    year % 4 == 0 && (year % 100 != 0 || year % 400 == 0)
  }

  function DaysInYear(year: int): int
  {
    if IsLeapYear(year) then 366 else 365
  }

  function DaysInMonth(year: int, month: int): (n: int)
    requires 1 <= month <= 12
    ensures 28 <= n <= 31
  {
    if month == 2 then (if IsLeapYear(year) then 29 else 28)
    else if month == 4 || month == 6 || month == 9 || month == 11 then 30
    else 31
  }

  /** A year/month/day triple; `Valid` is what `strptime` accepts for `%Y-%m-%d`
      (years 1 to 9999, `datetime.MINYEAR` to `datetime.MAXYEAR`). */
  datatype CalendarDate = CalendarDate(year: int, month: int, day: int)
  {
    predicate Valid()
    {
      1 <= year <= 9999 && 1 <= month <= 12 && 1 <= day <= DaysInMonth(year, month)
    }
  }

  type Date = d: CalendarDate | d.Valid() witness CalendarDate(2000, 1, 1)

  /** Days of `year` that precede the first of `month`. */
  function DaysBeforeMonth(year: int, month: int): (n: int)
    requires 1 <= month <= 12
    ensures 0 <= n
    ensures n + DaysInMonth(year, month) <= DaysInYear(year)
    ensures month == 1 ==> n == 0
  {
    [0, 31, 59, 90, 120, 151, 181, 212, 243, 273, 304, 334][month - 1]
      + (if month > 2 && IsLeapYear(year) then 1 else 0)
  }

  /** Reference definition of `DaysBeforeMonth`: the lengths of the months
      before `month` added up one by one. */
  function MonthLengthsBefore(year: int, month: int): int
    requires 1 <= month <= 13
  {
    if month == 1 then 0 else MonthLengthsBefore(year, month - 1) + DaysInMonth(year, month - 1)
  }

  /** The cumulative table agrees with the month lengths: each entry is the
      previous one plus that month's length, and December ends the year. */
  lemma {:induction false} MonthTableAgrees(year: int, month: int)
    requires 1 <= month <= 12
    ensures DaysBeforeMonth(year, month) == MonthLengthsBefore(year, month)
    ensures month < 12 ==>
      DaysBeforeMonth(year, month + 1) == DaysBeforeMonth(year, month) + DaysInMonth(year, month)
    ensures DaysBeforeMonth(year, 12) + DaysInMonth(year, 12) == DaysInYear(year)
  {
    if month > 1 {
      MonthTableAgrees(year, month - 1);
    }
  }

  /** Day of the year, 1 for January 1st (`timetuple().tm_yday`). */
  function DayOfYear(d: Date): (n: int)
    ensures 1 <= n <= DaysInYear(d.year)
    ensures n <= 366
  {
    DaysBeforeMonth(d.year, d.month) + d.day
  }

  /** Days in all years before `year`, counting from year 1. */
  function DaysBeforeYear(year: int): int
    requires year >= 1
  {
    var y := year - 1;
    y * 365 + y / 4 - y / 100 + y / 400
  }

  /** Day number of a date, 1 for 0001-01-01 (`date.toordinal()`). */
  function Ordinal(d: Date): int
  {
    DaysBeforeYear(d.year) + DayOfYear(d)
  }

  /** Day number of 9999-12-31, the last date `datetime` can represent
      (`date.max`); a `timedelta` addition past it raises `OverflowError`. */
  const MaxOrdinal: int := 3652059

  lemma MaxOrdinalIsLastDate()
    ensures Ordinal(CalendarDate(9999, 12, 31)) == MaxOrdinal
  {
  }

  /** Chronological order on calendar dates: by year, then month, then day. */
  predicate Before(a: CalendarDate, b: CalendarDate)
  {
    a.year < b.year
    || (a.year == b.year && (a.month < b.month || (a.month == b.month && a.day < b.day)))
  }

  /** Counting multiples of 4, 100 and 400 up to `y + 1`: one more than up to
      `y` exactly when `y + 1` is a multiple. */
  lemma CountStep4(y: int)
    requires 0 <= y
    ensures (y + 1) / 4 == y / 4 + (if (y + 1) % 4 == 0 then 1 else 0)
  {
  }

  lemma CountStep100(y: int)
    requires 0 <= y
    ensures (y + 1) / 100 == y / 100 + (if (y + 1) % 100 == 0 then 1 else 0)
  {
  }

  lemma CountStep400(y: int)
    requires 0 <= y
    ensures (y + 1) / 400 == y / 400 + (if (y + 1) % 400 == 0 then 1 else 0)
  {
  }

  /** A multiple of 400 is a multiple of 100, and that of 4. */
  lemma MultiplesNest(n: int)
    ensures n % 400 == 0 ==> n % 100 == 0
    ensures n % 100 == 0 ==> n % 4 == 0
  {
    if n % 400 == 0 {
      assert n == 400 * (n / 400);
    }
    if n % 100 == 0 {
      assert n == 100 * (n / 100);
    }
  }

  lemma NextYear(year: int)
    requires year >= 1
    ensures DaysBeforeYear(year + 1) == DaysBeforeYear(year) + DaysInYear(year)
  {
    var y := year - 1;
    CountStep4(y);
    CountStep100(y);
    CountStep400(y);
    MultiplesNest(year);
    assert DaysBeforeYear(year + 1) == year * 365 + year / 4 - year / 100 + year / 400;
  }

  lemma {:induction false} YearsAscend(y: int, z: int)
    requires 1 <= y <= z
    ensures DaysBeforeYear(y) + (z - y) * 365 <= DaysBeforeYear(z)
    decreases z - y
  {
    if y < z {
      NextYear(y);
      YearsAscend(y + 1, z);
    }
  }

  lemma MonthsAscend(year: int, m1: int, m2: int)
    requires 1 <= m1 < m2 <= 12
    ensures DaysBeforeMonth(year, m1) + DaysInMonth(year, m1) <= DaysBeforeMonth(year, m2)
  {
  }

  /** Ordinals order dates chronologically, in both directions: comparing day
      numbers is comparing dates. */
  lemma OrdinalIsChronological(a: Date, b: Date)
    ensures Before(a, b) <==> Ordinal(a) < Ordinal(b)
  {
    if Before(a, b) {
      OrdinalAscends(a, b);
    } else if a == b {
    } else {
      assert Before(b, a);
      OrdinalAscends(b, a);
    }
  }

  lemma OrdinalAscends(a: Date, b: Date)
    requires Before(a, b)
    ensures Ordinal(a) < Ordinal(b)
  {
    if a.year < b.year {
      NextYear(a.year);
      YearsAscend(a.year + 1, b.year);
    } else if a.month < b.month {
      MonthsAscend(a.year, a.month, b.month);
    }
  }
}

=== FILE: common.dfy ===
/** Shared vocabulary for the phenology model: optional values and results,
    sums and means of real sequences, the first maximum of a sequence,
    order-preserving filtering, and truncation toward zero (Python's `int`). */
module Common {

  datatype Option<+T> = None | Some(value: T)

  datatype Result<+T, +E> = Ok(value: T) | Err(error: E)

  function MinInt(a: int, b: int): int { if a <= b then a else b }

  function MaxInt(a: int, b: int): int { if a >= b then a else b }

  function MinReal(a: real, b: real): real { if a <= b then a else b }

  function MaxReal(a: real, b: real): real { if a >= b then a else b }

  function AbsReal(x: real): real { if x < 0.0 then -x else x }

  // ---------------------------------------------------------------------
  // Sums and means
  // ---------------------------------------------------------------------

  /** Python's `sum` over a list of floats. */
  function Sum(xs: seq<real>): real
  {
    if |xs| == 0 then 0.0 else xs[0] + Sum(xs[1..])
  }

  /** Python's `sum` over a list of ints. */
  function SumInt(xs: seq<int>): int
  {
    if |xs| == 0 then 0 else xs[0] + SumInt(xs[1..])
  }

  /** Arithmetic mean (`np.mean`, or `sum(xs) / len(xs)`). */
  function Mean(xs: seq<real>): real
    requires |xs| > 0
  {
    Sum(xs) / (|xs| as real)
  }

  /** The ints of `xs` as reals, element by element. */
  function AsReals(xs: seq<int>): (r: seq<real>)
    ensures |r| == |xs|
    ensures forall i :: 0 <= i < |xs| ==> r[i] == xs[i] as real
  {
    seq(|xs|, i requires 0 <= i < |xs| => xs[i] as real)
  }

  lemma {:induction false} SumBounds(xs: seq<real>, lo: real, hi: real)
    requires forall i :: 0 <= i < |xs| ==> lo <= xs[i] <= hi
    ensures lo * (|xs| as real) <= Sum(xs) <= hi * (|xs| as real)
  {
    if |xs| > 0 {
      SumBounds(xs[1..], lo, hi);
      assert lo * (|xs| as real) == lo + lo * ((|xs| - 1) as real);
      assert hi * (|xs| as real) == hi + hi * ((|xs| - 1) as real);
    }
  }

  lemma {:induction false} SumIntBounds(xs: seq<int>, lo: int, hi: int)
    requires forall i :: 0 <= i < |xs| ==> lo <= xs[i] <= hi
    ensures lo * |xs| <= SumInt(xs) <= hi * |xs|
  {
    if |xs| > 0 {
      SumIntBounds(xs[1..], lo, hi);
    }
  }

  lemma {:induction false} SumIntAsReal(xs: seq<int>)
    ensures Sum(AsReals(xs)) == SumInt(xs) as real
  {
    if |xs| > 0 {
      assert AsReals(xs)[1..] == AsReals(xs[1..]);
      SumIntAsReal(xs[1..]);
    }
  }

  /** A quotient of reals lies between the same bounds as the numerator scaled down. */
  lemma DivideBounds(s: real, n: real, lo: real, hi: real)
    requires n > 0.0
    requires lo * n <= s <= hi * n
    ensures lo <= s / n <= hi
  {
    var q := s / n;
    assert q * n == s;
  }

  /** Multiplying by a non-negative factor preserves order. */
  lemma MulLeMono(x: real, y1: real, y2: real)
    requires 0.0 <= x && y1 <= y2
    ensures x * y1 <= x * y2
  {
    assert x * y2 - x * y1 == x * (y2 - y1);
  }

  /** The mean of values confined to [lo, hi] is confined to [lo, hi]. */
  lemma MeanWithin(xs: seq<real>, lo: real, hi: real)
    requires |xs| > 0
    requires forall i :: 0 <= i < |xs| ==> lo <= xs[i] <= hi
    ensures lo <= Mean(xs) <= hi
  {
    SumBounds(xs, lo, hi);
    DivideBounds(Sum(xs), |xs| as real, lo, hi);
  }

  // ---------------------------------------------------------------------
  // First maximum (np.argmax) and maximum (max)
  // ---------------------------------------------------------------------

  /** Index of the first maximal element, as `np.argmax` returns it. */
  function ArgMax(xs: seq<real>): (k: nat)
    requires |xs| > 0
    ensures k < |xs|
    ensures forall j :: 0 <= j < |xs| ==> xs[j] <= xs[k]
    ensures forall j :: 0 <= j < k ==> xs[j] < xs[k]
  {
    if |xs| == 1 then 0
    else
      var k := ArgMax(xs[..|xs| - 1]);
      if xs[|xs| - 1] > xs[k] then |xs| - 1 else k
  }

  /** The largest element (`max` / `np.max`). */
  function MaxOf(xs: seq<real>): (m: real)
    requires |xs| > 0
    ensures forall j :: 0 <= j < |xs| ==> xs[j] <= m
    ensures m in xs
  {
    xs[ArgMax(xs)]
  }

  /** The smallest element (`min` / `np.min`). */
  function MinOf(xs: seq<real>): (m: real)
    requires |xs| > 0
    ensures forall j :: 0 <= j < |xs| ==> m <= xs[j]
    ensures m in xs
  {
    if |xs| == 1 then xs[0]
    else
      var m := MinOf(xs[1..]);
      assert forall j :: 1 <= j < |xs| ==> xs[j] == xs[1..][j - 1];
      if xs[0] <= m then xs[0] else m
  }

  function MinIntOf(xs: seq<int>): (m: int)
    requires |xs| > 0
    ensures forall j :: 0 <= j < |xs| ==> m <= xs[j]
    ensures m in xs
  {
    if |xs| == 1 then xs[0]
    else
      var m := MinIntOf(xs[1..]);
      assert forall j :: 1 <= j < |xs| ==> xs[j] == xs[1..][j - 1];
      if xs[0] <= m then xs[0] else m
  }

  function MaxIntOf(xs: seq<int>): (m: int)
    requires |xs| > 0
    ensures forall j :: 0 <= j < |xs| ==> xs[j] <= m
    ensures m in xs
  {
    if |xs| == 1 then xs[0]
    else
      var m := MaxIntOf(xs[1..]);
      assert forall j :: 1 <= j < |xs| ==> xs[j] == xs[1..][j - 1];
      if xs[0] >= m then xs[0] else m
  }

  // ---------------------------------------------------------------------
  // Order-preserving filter (a Python list comprehension with an `if`)
  // ---------------------------------------------------------------------

  function Filter<T>(s: seq<T>, p: T -> bool): (r: seq<T>)
    ensures |r| <= |s|
  {
    if |s| == 0 then []
    else
      var rest := Filter(s[1..], p);
      if p(s[0]) then [s[0]] + rest else rest
  }

  /** Filtering keeps exactly the elements that satisfy the predicate, each
      as often as it occurs in the input. */
  lemma {:induction false} FilterMembers<T(!new)>(s: seq<T>, p: T -> bool)
    ensures forall x :: x in Filter(s, p) <==> x in s && p(x)
    ensures forall x :: multiset(Filter(s, p))[x] == if p(x) then multiset(s)[x] else 0
  {
    if |s| > 0 {
      FilterMembers(s[1..], p);
      assert s == [s[0]] + s[1..];
    }
  }

  /** Filtering distributes over concatenation, so it keeps the input order. */
  lemma {:induction false} FilterAppend<T>(a: seq<T>, b: seq<T>, p: T -> bool)
    ensures Filter(a + b, p) == Filter(a, p) + Filter(b, p)
  {
    if |a| == 0 {
      assert a + b == b;
    } else {
      var ab := a + b;
      assert ab[0] == a[0];
      assert ab[1..] == a[1..] + b;
      FilterAppend(a[1..], b, p);
      if p(a[0]) {
        calc {
          Filter(ab, p);
          [a[0]] + Filter(a[1..] + b, p);
          [a[0]] + (Filter(a[1..], p) + Filter(b, p));
          ([a[0]] + Filter(a[1..], p)) + Filter(b, p);
        }
      }
    }
  }

  /** Filtering with a stronger predicate after a weaker one is the same as
      filtering with the stronger one directly. */
  lemma {:induction false} FilterStronger<T>(s: seq<T>, weak: T -> bool, strong: T -> bool)
    requires forall x :: strong(x) ==> weak(x)
    ensures Filter(Filter(s, weak), strong) == Filter(s, strong)
  {
    if |s| > 0 {
      FilterStronger(s[1..], weak, strong);
      if weak(s[0]) {
        assert Filter(s, weak) == [s[0]] + Filter(s[1..], weak);
        assert ([s[0]] + Filter(s[1..], weak))[1..] == Filter(s[1..], weak);
      }
    }
  }

  /** Two filters in a row are one filter by the conjunction, given as `both`. */
  lemma {:induction false} FilterTwice<T>(s: seq<T>, p: T -> bool, q: T -> bool, both: T -> bool)
    requires forall x :: both(x) == (p(x) && q(x))
    ensures Filter(Filter(s, p), q) == Filter(s, both)
  {
    if |s| > 0 {
      FilterTwice(s[1..], p, q, both);
      if p(s[0]) {
        assert Filter(s, p) == [s[0]] + Filter(s[1..], p);
        assert ([s[0]] + Filter(s[1..], p))[1..] == Filter(s[1..], p);
      }
    }
  }

  /** Filtering by a predicate that holds of every element changes nothing. */
  lemma {:induction false} FilterAll<T>(s: seq<T>, p: T -> bool)
    requires forall i :: 0 <= i < |s| ==> p(s[i])
    ensures Filter(s, p) == s
  {
    if |s| > 0 {
      FilterAll(s[1..], p);
      assert [s[0]] + s[1..] == s;
    }
  }

  /** Filtering by a predicate that holds of no element yields nothing. */
  lemma {:induction false} FilterNone<T>(s: seq<T>, p: T -> bool)
    requires forall i :: 0 <= i < |s| ==> !p(s[i])
    ensures Filter(s, p) == []
  {
    if |s| > 0 {
      FilterNone(s[1..], p);
    }
  }

  /** Two predicates that agree on every element filter identically. */
  lemma {:induction false} FilterCongruent<T>(s: seq<T>, p: T -> bool, q: T -> bool)
    requires forall i :: 0 <= i < |s| ==> p(s[i]) == q(s[i])
    ensures Filter(s, p) == Filter(s, q)
  {
    if |s| > 0 {
      FilterCongruent(s[1..], p, q);
    }
  }

  // ---------------------------------------------------------------------
  // Truncation toward zero (Python's `int(x)` on a float)
  // ---------------------------------------------------------------------

  function Trunc(x: real): (r: int)
    ensures 0.0 <= x ==> 0 <= r && r as real <= x < r as real + 1.0
    ensures x < 0.0 ==> r <= 0 && r as real - 1.0 < x <= r as real
  {
    if x >= 0.0 then x.Floor else -((-x).Floor)
  }
}

=== FILE: database.dfy ===
/** backend/models/database.py: the records of the application (bloom events,
    monitored regions, species with their bloom history, vegetation index
    measurements, user alerts) and `InMemoryStore`, which keeps them in lists
    and dictionaries.

    The store's mutation is modelled functionally: each `add_*` returns the
    new store. Dates are day numbers, compared as numbers; the store compares
    date strings, whose order agrees with the dates' only for zero-padded
    `YYYY-MM-DD` strings with four-digit years. Creation timestamps (`datetime.utcnow()`) are left out. */
module Database {
  import opened Common
  import opened Calendar

  // =====================================================================
  // Records
  // =====================================================================

  datatype BloomEvent = BloomEvent(id: string, lat: real, lon: real, date: int, species: string,
                                   ndvi: real, confidence: real, source: string)

  datatype Bounds = Bounds(minLat: real, maxLat: real, minLon: real, maxLon: real)

  datatype Region = Region(name: string, bounds: Bounds, description: string, active: bool,
                           bloomEvents: seq<BloomEvent>)

  /** `Region._is_in_bounds`: the closed box, edges included. */
  predicate InBounds(b: Bounds, lat: real, lon: real)
  {
    b.minLat <= lat <= b.maxLat && b.minLon <= lon <= b.maxLon
  }

  /** A region created empty (`bloom_events = []`). */
  function NewRegion(name: string, bounds: Bounds, description: string): (r: Region)
    ensures r.name == name && r.bounds == bounds && r.description == description
    ensures r.bloomEvents == [] && r.active
  {
    Region(name, bounds, description, true, [])
  }

  /** `Region.add_bloom_event`: append the event when it lies in the region. */
  function AddToRegion(r: Region, e: BloomEvent): (r': Region)
    ensures InBounds(r.bounds, e.lat, e.lon) ==> r'.bloomEvents == r.bloomEvents + [e]
    ensures !InBounds(r.bounds, e.lat, e.lon) ==> r' == r
    ensures r'.name == r.name && r'.bounds == r.bounds && r'.description == r.description
      && r'.active == r.active
  {
    if InBounds(r.bounds, e.lat, e.lon) then r.(bloomEvents := r.bloomEvents + [e]) else r
  }

  /** Every event a region holds lies within its bounds. */
  ghost predicate RegionValid(r: Region)
  {
    forall i :: 0 <= i < |r.bloomEvents| ==> InBounds(r.bounds, r.bloomEvents[i].lat, r.bloomEvents[i].lon)
  }

  /** Adding events through the region keeps it valid, so every region is. */
  lemma AddToRegionValid(r: Region, e: BloomEvent)
    requires RegionValid(r)
    ensures RegionValid(AddToRegion(r, e))
  {
  }

  // ---------------------------------------------------------------------
  // Species
  // ---------------------------------------------------------------------

  datatype BloomRecord = BloomRecord(year: int, location: string, bloomDate: Date, durationDays: int)

  /** How long a bloom lasts, in days: a range from `low` to `high`. */
  datatype DurationRange = DurationRange(low: int, high: int)

  datatype Characteristics = Characteristics(color: string, duration: DurationRange,
                                             temperatureSensitive: bool)

  datatype Species = Species(commonName: string, scientificName: string, typicalBloomMonths: seq<int>,
                             regions: seq<string>, characteristics: Characteristics,
                             bloomHistory: seq<BloomRecord>)

  /** `Species.add_bloom_record`: append to the history. */
  function AddBloomRecord(sp: Species, rec: BloomRecord): (r: Species)
    ensures r.bloomHistory == sp.bloomHistory + [rec]
    ensures r.(bloomHistory := sp.bloomHistory) == sp
  {
    sp.(bloomHistory := sp.bloomHistory + [rec])
  }

  /** The day of the year of every recorded bloom. */
  function BloomDays(history: seq<BloomRecord>): (d: seq<int>)
    ensures |d| == |history|
    ensures forall i :: 0 <= i < |history| ==> d[i] == DayOfYear(history[i].bloomDate)
    ensures forall i :: 0 <= i < |history| ==> 1 <= d[i] <= 366
  {
    seq(|history|, i requires 0 <= i < |history| => DayOfYear(history[i].bloomDate))
  }

  /** `Species.get_average_bloom_day`: None without history, otherwise the
      mean day of the year truncated to an int. It never leaves the range
      of the recorded days. */
  function AverageBloomDay(sp: Species): (r: Option<int>)
    ensures r.None? <==> |sp.bloomHistory| == 0
    ensures r.Some? ==> MinIntOf(BloomDays(sp.bloomHistory)) <= r.value <= MaxIntOf(BloomDays(sp.bloomHistory))
    ensures r.Some? ==> 1 <= r.value <= 366
  {
    var days := BloomDays(sp.bloomHistory);
    if |days| == 0 then None
    else
      var lo, hi := MinIntOf(days), MaxIntOf(days);
      SumIntAsReal(days);
      MeanWithin(AsReals(days), lo as real, hi as real);
      Some(Trunc((SumInt(days) as real) / (|days| as real)))
  }

  /** Truncating the true quotient of a non-negative sum is integer floor
      division. */
  lemma TruncQuotient(a: int, n: int)
    requires 0 <= a && 0 < n
    ensures Trunc((a as real) / (n as real)) == a / n
  {
    var q, m := a / n, a % n;
    var x := (a as real) / (n as real);
    assert (a as real) == (q as real) * (n as real) + (m as real);
    assert x == (q as real) + (m as real) / (n as real);
    DivideBounds(m as real, n as real, 0.0, 1.0 - 1.0 / (n as real));
    assert (m as real) / (n as real) < 1.0;
  }

  /** The average bloom day is the floor of the sum of the days divided by
      their number. */
  lemma AverageIsFloorDivision(sp: Species)
    requires |sp.bloomHistory| > 0
    ensures AverageBloomDay(sp).value == SumInt(BloomDays(sp.bloomHistory)) / |sp.bloomHistory|
  {
    var days := BloomDays(sp.bloomHistory);
    SumIntBounds(days, 1, 366);
    TruncQuotient(SumInt(days), |days|);
  }

  // ---------------------------------------------------------------------
  // Vegetation indices and alerts
  // ---------------------------------------------------------------------

  datatype VegetationIndex = VegetationIndex(lat: real, lon: real, date: int, ndvi: Option<real>,
                                             evi: Option<real>, ndwi: Option<real>, quality: string)

  datatype UserAlert = UserAlert(userId: string, regionName: string, species: seq<string>,
                                 alertType: string, active: bool)

  // =====================================================================
  // InMemoryStore
  // =====================================================================

  datatype Store = Store(bloomEvents: seq<BloomEvent>, regions: map<string, Region>,
                         species: map<string, Species>, vegetationIndices: seq<VegetationIndex>,
                         alerts: seq<UserAlert>)

  /** Every region of the store holds only events inside its bounds. */
  ghost predicate StoreValid(s: Store)
  {
    forall k :: k in s.regions ==> RegionValid(s.regions[k])
  }

  /** `InMemoryStore.add_bloom_event`: record the event once in the store and
      hand it to every region, which keeps it only when it lies inside. */
  function AddBloomEvent(s: Store, e: BloomEvent): (r: Store)
    ensures r.bloomEvents == s.bloomEvents + [e]
    ensures r.regions.Keys == s.regions.Keys
    ensures forall k :: k in s.regions ==> r.regions[k] == AddToRegion(s.regions[k], e)
    ensures forall k :: k in s.regions ==>
      r.regions[k].bloomEvents == s.regions[k].bloomEvents
        + (if InBounds(s.regions[k].bounds, e.lat, e.lon) then [e] else [])
    ensures r.species == s.species && r.vegetationIndices == s.vegetationIndices && r.alerts == s.alerts
  {
    s.(bloomEvents := s.bloomEvents + [e],
       regions := map k | k in s.regions :: AddToRegion(s.regions[k], e))
  }

  /** Adding an event keeps every region's events inside its bounds. */
  lemma AddBloomEventValid(s: Store, e: BloomEvent)
    requires StoreValid(s)
    ensures StoreValid(AddBloomEvent(s, e))
  {
    forall k | k in s.regions
      ensures RegionValid(AddBloomEvent(s, e).regions[k])
    {
      AddToRegionValid(s.regions[k], e);
    }
  }

  function InDateRange(start: int, end: int): BloomEvent -> bool
  {
    (e: BloomEvent) => start <= e.date <= end
  }

  function InRegion(b: Bounds): BloomEvent -> bool
  {
    (e: BloomEvent) => InBounds(b, e.lat, e.lon)
  }

  /** The region filter applies only to a non-empty name the store knows
      (`if region and region in self.regions`). */
  predicate RegionApplies(s: Store, region: Option<string>)
  {
    region.Some? && region.value != "" && region.value in s.regions
  }

  /** `InMemoryStore.get_bloom_events`: an event is returned iff it is
      stored, dated within [start, end] and, when the region applies, inside
      the region; it is returned as often as it was stored. */
  function GetBloomEvents(s: Store, start: int, end: int, region: Option<string>): (r: seq<BloomEvent>)
    ensures forall e :: e in r <==>
      e in s.bloomEvents && start <= e.date <= end
      && (RegionApplies(s, region) ==> InBounds(s.regions[region.value].bounds, e.lat, e.lon))
    ensures forall e :: e in r ==> multiset(r)[e] == multiset(s.bloomEvents)[e]
  {
    var events := Filter(s.bloomEvents, InDateRange(start, end));
    FilterMembers(s.bloomEvents, InDateRange(start, end));
    if RegionApplies(s, region) then
      FilterMembers(events, InRegion(s.regions[region.value].bounds));
      Filter(events, InRegion(s.regions[region.value].bounds))
    else events
  }

  /** The events matching a query: dated within [start, end] and, when the
      region applies, inside it. */
  function Matches(s: Store, start: int, end: int, region: Option<string>): BloomEvent -> bool
  {
    (e: BloomEvent) => start <= e.date <= end
      && (RegionApplies(s, region) ==> InBounds(s.regions[region.value].bounds, e.lat, e.lon))
  }

  /** The answer keeps the insertion order: it is the stored list with the
      non-matching events removed, in one pass. */
  lemma GetBloomEventsInOrder(s: Store, start: int, end: int, region: Option<string>)
    ensures GetBloomEvents(s, start, end, region) == Filter(s.bloomEvents, Matches(s, start, end, region))
  {
    if RegionApplies(s, region) {
      FilterTwice(s.bloomEvents, InDateRange(start, end), InRegion(s.regions[region.value].bounds),
                  Matches(s, start, end, region));
    } else {
      FilterCongruent(s.bloomEvents, InDateRange(start, end), Matches(s, start, end, region));
    }
  }

  /** An event added after the others comes back last from a query it matches,
      with or without a region, and the earlier answer is unchanged before it. */
  lemma GetAfterAdd(s: Store, e: BloomEvent, start: int, end: int, region: Option<string>)
    ensures GetBloomEvents(AddBloomEvent(s, e), start, end, region) ==
      GetBloomEvents(s, start, end, region) + (if Matches(s, start, end, region)(e) then [e] else [])
  {
    GetBloomEventsInOrder(s, start, end, region);
    MatchesAfterAdd(s, e, start, end, region);
    FilterAppend(s.bloomEvents, [e], Matches(s, start, end, region));
    assert [e][1..] == [];
  }

  /** Adding an event changes no region's bounds, so the store after it
      answers as one filter of its events by the old store's criteria. */
  lemma MatchesAfterAdd(s: Store, e: BloomEvent, start: int, end: int, region: Option<string>)
    ensures GetBloomEvents(AddBloomEvent(s, e), start, end, region)
      == Filter(s.bloomEvents + [e], Matches(s, start, end, region))
  {
    var s' := AddBloomEvent(s, e);
    GetBloomEventsInOrder(s', start, end, region);
    FilterCongruent(s'.bloomEvents, Matches(s', start, end, region), Matches(s, start, end, region));
  }

  /** `InMemoryStore.add_vegetation_index`. */
  function AddVegetationIndex(s: Store, vi: VegetationIndex): (r: Store)
    ensures r.vegetationIndices == s.vegetationIndices + [vi]
    ensures r.(vegetationIndices := s.vegetationIndices) == s
  {
    s.(vegetationIndices := s.vegetationIndices + [vi])
  }

  /** The default search radius of `get_vegetation_indices`, in degrees. */
  const DefaultTolerance: real := 0.1

  function Near(lat: real, lon: real, start: int, end: int, tolerance: real): VegetationIndex -> bool
  {
    (vi: VegetationIndex) =>
      AbsReal(vi.lat - lat) <= tolerance && AbsReal(vi.lon - lon) <= tolerance && start <= vi.date <= end
  }

  /** `InMemoryStore.get_vegetation_indices`: the stored measurements within
      `tolerance` degrees of the point on both axes and dated within the range,
      in insertion order. */
  function GetVegetationIndices(s: Store, lat: real, lon: real, start: int, end: int, tolerance: real)
    : (r: seq<VegetationIndex>)
    ensures |r| <= |s.vegetationIndices|
    ensures forall vi :: vi in r <==>
      vi in s.vegetationIndices
      && AbsReal(vi.lat - lat) <= tolerance && AbsReal(vi.lon - lon) <= tolerance
      && start <= vi.date <= end
    ensures forall vi :: vi in r ==> multiset(r)[vi] == multiset(s.vegetationIndices)[vi]
  {
    FilterMembers(s.vegetationIndices, Near(lat, lon, start, end, tolerance));
    Filter(s.vegetationIndices, Near(lat, lon, start, end, tolerance))
  }

  /** A new measurement is appended last to the answer of every query it
      matches, and changes no other answer: with the empty initial list, this
      fixes the answer's order as the insertion order. */
  lemma VegetationAfterAdd(s: Store, vi: VegetationIndex, lat: real, lon: real, start: int, end: int,
                           tolerance: real)
    ensures GetVegetationIndices(AddVegetationIndex(s, vi), lat, lon, start, end, tolerance)
      == GetVegetationIndices(s, lat, lon, start, end, tolerance)
         + (if Near(lat, lon, start, end, tolerance)(vi) then [vi] else [])
  {
    FilterAppend(s.vegetationIndices, [vi], Near(lat, lon, start, end, tolerance));
    assert [vi][1..] == [];
  }

  /** With the default tolerance, a stored measurement taken at the queried
      point and dated within the range is found. */
  lemma DefaultQueryFindsPoint(s: Store, vi: VegetationIndex, start: int, end: int)
    requires vi in s.vegetationIndices && start <= vi.date <= end
    ensures vi in GetVegetationIndices(s, vi.lat, vi.lon, start, end, DefaultTolerance)
  {
  }

  /** Completeness of `get_vegetation_indices`: every stored measurement near
      the point and in range is returned, as often as it is stored. */
  lemma GetVegetationIndicesComplete(s: Store, lat: real, lon: real, start: int, end: int,
                                     tolerance: real, vi: VegetationIndex)
    requires vi in s.vegetationIndices
    requires AbsReal(vi.lat - lat) <= tolerance && AbsReal(vi.lon - lon) <= tolerance
    requires start <= vi.date <= end
    ensures vi in GetVegetationIndices(s, lat, lon, start, end, tolerance)
    ensures multiset(GetVegetationIndices(s, lat, lon, start, end, tolerance))[vi]
      == multiset(s.vegetationIndices)[vi]
  {
    FilterMembers(s.vegetationIndices, Near(lat, lon, start, end, tolerance));
  }

  /** `InMemoryStore.add_region`: stored under its name, replacing any region
      of that name. */
  function AddRegion(s: Store, region: Region): (r: Store)
    ensures r.regions.Keys == s.regions.Keys + {region.name}
    ensures r.regions[region.name] == region
    ensures forall k :: k in s.regions && k != region.name ==> r.regions[k] == s.regions[k]
    ensures r.(regions := s.regions) == s
  {
    s.(regions := s.regions[region.name := region])
  }

  /** `InMemoryStore.get_region` (`dict.get`). */
  function GetRegion(s: Store, name: string): (r: Option<Region>)
    ensures r.Some? <==> name in s.regions
    ensures r.Some? ==> r.value == s.regions[name]
  {
    if name in s.regions then Some(s.regions[name]) else None
  }

  /** A region added is found under its name, other names are unaffected, and
      a valid region keeps the store valid. */
  lemma AddThenGetRegion(s: Store, region: Region, name: string)
    ensures GetRegion(AddRegion(s, region), region.name) == Some(region)
    ensures name != region.name ==> GetRegion(AddRegion(s, region), name) == GetRegion(s, name)
    ensures StoreValid(s) && RegionValid(region) ==> StoreValid(AddRegion(s, region))
  {
  }

  // ---------------------------------------------------------------------
  // Species keys
  // ---------------------------------------------------------------------

  predicate IsAsciiUpper(c: char)
  {
    'A' <= c <= 'Z'
  }

  /** `str.lower` on one character, for the ASCII letters. */
  function LowerChar(c: char): (r: char)
    ensures !IsAsciiUpper(r)
    ensures IsAsciiUpper(c) ==> r as int == c as int + 32
    ensures !IsAsciiUpper(c) ==> r == c
  {
    if IsAsciiUpper(c) then (c as int + 32) as char else c
  }

  /** A key character: lower case, with a space turned into an underscore. */
  function KeyChar(c: char): (r: char)
    ensures r != ' ' && !IsAsciiUpper(r)
    ensures c != ' ' ==> r == LowerChar(c)
    ensures c == ' ' ==> r == '_'
  {
    var l := LowerChar(c);
    if l == ' ' then '_' else l
  }

  /** The dictionary key `add_species` computes from the common name
      (`common_name.lower().replace(' ', '_')`). */
  function SpeciesKey(name: string): (k: string)
    ensures |k| == |name|
    ensures forall i :: 0 <= i < |k| ==> k[i] == KeyChar(name[i])
    ensures forall i :: 0 <= i < |k| ==> k[i] != ' ' && !IsAsciiUpper(k[i])
  {
    seq(|name|, i requires 0 <= i < |name| => KeyChar(name[i]))
  }

  /** A key is its own key: keying twice changes nothing. */
  lemma SpeciesKeyIdempotent(name: string)
    ensures SpeciesKey(SpeciesKey(name)) == SpeciesKey(name)
  {
    var k := SpeciesKey(name);
    forall i | 0 <= i < |k|
      ensures KeyChar(k[i]) == k[i]
    {
      assert k[i] != ' ' && !IsAsciiUpper(k[i]);
    }
  }

  /** `InMemoryStore.add_species`. */
  function AddSpecies(s: Store, sp: Species): (r: Store)
    ensures r.species.Keys == s.species.Keys + {SpeciesKey(sp.commonName)}
    ensures r.species[SpeciesKey(sp.commonName)] == sp
    ensures forall k :: k in s.species && k != SpeciesKey(sp.commonName) ==> r.species[k] == s.species[k]
    ensures r.(species := s.species) == s
  {
    s.(species := s.species[SpeciesKey(sp.commonName) := sp])
  }

  /** `InMemoryStore.get_species` (`dict.get`). */
  function GetSpecies(s: Store, name: string): (r: Option<Species>)
    ensures r.Some? <==> name in s.species
    ensures r.Some? ==> r.value == s.species[name]
  {
    if name in s.species then Some(s.species[name]) else None
  }

  /** A species added is found under its key; a lookup under any other name
      answers as it did before the addition. */
  lemma AddThenGetSpecies(s: Store, sp: Species, name: string)
    ensures GetSpecies(AddSpecies(s, sp), SpeciesKey(sp.commonName)) == Some(sp)
    ensures name != SpeciesKey(sp.commonName) ==> GetSpecies(AddSpecies(s, sp), name) == GetSpecies(s, name)
  {
  }

  // ---------------------------------------------------------------------
  // Alerts
  // ---------------------------------------------------------------------

  /** `InMemoryStore.add_alert`. */
  function AddAlert(s: Store, a: UserAlert): (r: Store)
    ensures r.alerts == s.alerts + [a]
    ensures r.(alerts := s.alerts) == s
  {
    s.(alerts := s.alerts + [a])
  }

  function OfUser(userId: string): UserAlert -> bool
  {
    (a: UserAlert) => a.userId == userId
  }

  /** `InMemoryStore.get_user_alerts`: the user's alerts in insertion order. */
  function GetUserAlerts(s: Store, userId: string): (r: seq<UserAlert>)
    ensures |r| <= |s.alerts|
    ensures forall a :: a in r <==> a in s.alerts && a.userId == userId
    ensures forall a :: a in r ==> multiset(r)[a] == multiset(s.alerts)[a]
  {
    FilterMembers(s.alerts, OfUser(userId));
    Filter(s.alerts, OfUser(userId))
  }

  /** A new alert is appended to its own user's list and to no one else's. */
  lemma AlertsAfterAdd(s: Store, a: UserAlert, userId: string)
    ensures GetUserAlerts(AddAlert(s, a), userId) ==
      GetUserAlerts(s, userId) + (if a.userId == userId then [a] else [])
  {
    FilterAppend(s.alerts, [a], OfUser(userId));
    assert [a][1..] == [];
  }

  // =====================================================================
  // The initial store
  // =====================================================================

  function DefaultRegions(): map<string, Region>
  {
    map[
      "washington_dc" := NewRegion("Washington DC", Bounds(38.8, 39.0, -77.2, -76.9),
                                   "Cherry blossom viewing area"),
      "japan_tokyo" := NewRegion("Tokyo, Japan", Bounds(35.5, 35.8, 139.5, 139.9),
                                 "Famous cherry blossom region"),
      "netherlands" := NewRegion("Netherlands Tulip Region", Bounds(52.0, 52.5, 4.5, 5.0),
                                 "Tulip fields")
    ]
  }

  /** The default species, with the bloom duration as the range of days it
      evidently stands for (see `DefaultDurationAsWritten`). */
  function DefaultSpecies(): map<string, Species>
  {
    map[
      "cherry_blossom" := Species("Cherry Blossom", "Prunus serrulata", [3, 4],
                                  ["Washington DC", "Tokyo", "Korea"],
                                  Characteristics("pink/white", DurationRange(7, 10), true), []),
      "tulip" := Species("Tulip", "Tulipa", [4, 5], ["Netherlands", "Turkey"],
                         Characteristics("various", DurationRange(14, 21), true), [])
    ]
  }

  /** `InMemoryStore()`: no events, measurements or alerts; three regions and
      two species. */
  function InitialStore(): (s: Store)
    ensures s.bloomEvents == [] && s.vegetationIndices == [] && s.alerts == []
    ensures s.regions.Keys == {"washington_dc", "japan_tokyo", "netherlands"}
    ensures s.species.Keys == {"cherry_blossom", "tulip"}
    ensures StoreValid(s)
  {
    Store([], DefaultRegions(), DefaultSpecies(), [], [])
  }

  /** The default species are stored under the very keys `add_species` would
      give them, and every default duration is a non-empty range of positive
      days. */
  lemma DefaultSpeciesConsistent()
    ensures forall k :: k in InitialStore().species ==> SpeciesKey(InitialStore().species[k].commonName) == k
    ensures forall k :: k in InitialStore().species ==>
      0 < InitialStore().species[k].characteristics.duration.low
        <= InitialStore().species[k].characteristics.duration.high
  {
    assert SpeciesKey("Cherry Blossom") == "cherry_blossom";
    assert SpeciesKey("Tulip") == "tulip";
  }

  /** `'duration_days': 7-10` and `14-21` as written: Python evaluates the
      subtractions, so the stored durations are the integers -3 and -7. */
  function DefaultDurationAsWritten(key: string): (d: Option<int>)
    ensures d.Some? <==> key in {"cherry_blossom", "tulip"}
  {
    if key == "cherry_blossom" then Some(7 - 10)
    else if key == "tulip" then Some(14 - 21)
    else None
  }

  /** The durations as written are negative day counts, where the corrected
      ranges are positive: the as-written value cannot be a duration. */
  lemma DurationAsWrittenIsNegative(key: string)
    requires key in {"cherry_blossom", "tulip"}
    ensures DefaultDurationAsWritten(key).value < 0
    ensures DefaultDurationAsWritten(key).value
      == InitialStore().species[key].characteristics.duration.low
         - InitialStore().species[key].characteristics.duration.high
  {
  }
}

=== FILE: derivative.dfy ===
/** The derivative-threshold bloom detector. The demo endpoint (backend/app.py)
    and the NASA service (backend/services/nasa_api.py) carry identical copies
    of it, so it is defined once here: take the adjacent differences of the
    NDVI series, the first difference above the threshold marks the onset, the
    first maximum of the series marks the peak, and ten times the onset
    difference, capped at 1, is the confidence.

    The threshold is `1.5 * np.std(differences)` in both copies; it is taken
    as a parameter here. */
module Derivative {
  import opened Common

  /** The rise from sample `i` to sample `i + 1`. */
  function Step(xs: seq<real>, i: int): real
    requires 0 <= i < |xs| - 1
  {
    xs[i + 1] - xs[i]
  }

  /** Adjacent differences (`np.diff`). */
  function Diff(xs: seq<real>): (d: seq<real>)
    ensures |d| == if |xs| == 0 then 0 else |xs| - 1
    ensures forall i :: 0 <= i < |d| ==> d[i] == Step(xs, i)
  {
    if |xs| < 2 then []
    else
      var rest := Diff(xs[1..]);
      assert forall i :: 0 <= i < |rest| ==> rest[i] == Step(xs, i + 1);
      [xs[1] - xs[0]] + rest
  }

  /** First index whose difference exceeds the threshold
      (`np.where(d > threshold)[0][0]`), or None when there is none. */
  function FirstAbove(d: seq<real>, threshold: real): (r: Option<nat>)
    ensures r.Some? ==> r.value < |d| && d[r.value] > threshold
    ensures r.Some? ==> forall j :: 0 <= j < r.value ==> d[j] <= threshold
    ensures r.None? <==> forall j :: 0 <= j < |d| ==> d[j] <= threshold
  {
    if |d| == 0 then None
    else if d[0] > threshold then Some(0)
    else
      match FirstAbove(d[1..], threshold)
      case None => None
      case Some(k) => Some(k + 1)
  }

  /** Index `i` is the onset: the first step steeper than the threshold. */
  ghost predicate IsOnset(xs: seq<real>, i: int, threshold: real)
  {
    0 <= i < |xs| - 1 && Step(xs, i) > threshold
    && forall j :: 0 <= j < i ==> Step(xs, j) <= threshold
  }

  /** At most one index is the onset. */
  lemma OnsetUnique(xs: seq<real>, threshold: real, i: int, j: int)
    requires IsOnset(xs, i, threshold) && IsOnset(xs, j, threshold)
    ensures i == j
  {
  }

  /** Index `k` holds the first maximum of the series (`np.argmax`). */
  ghost predicate IsFirstMax(xs: seq<real>, k: int)
  {
    0 <= k < |xs|
    && (forall j :: 0 <= j < |xs| ==> xs[j] <= xs[k])
    && forall j :: 0 <= j < k ==> xs[j] < xs[k]
  }

  /** A detected rise: the onset index, the peak index and the confidence. */
  datatype Rise = Rise(onset: nat, peak: nat, confidence: real)

  /** The shared detection block. None means that no difference exceeded the
      threshold; the callers turn that into their own "no bloom" answer. */
  function RapidRise(ndvi: seq<real>, threshold: real): (r: Option<Rise>)
    requires 0.0 <= threshold
    ensures r.None? <==> forall i :: 0 <= i < |ndvi| - 1 ==> Step(ndvi, i) <= threshold
    ensures r.Some? ==> IsOnset(ndvi, r.value.onset, threshold)
    ensures r.Some? ==> IsFirstMax(ndvi, r.value.peak)
    ensures r.Some? ==> 0.0 < r.value.confidence <= 1.0
    ensures r.Some? ==> r.value.confidence == MinReal(10.0 * Step(ndvi, r.value.onset), 1.0)
  {
    var d := Diff(ndvi);
    match FirstAbove(d, threshold)
    case None => None
    case Some(i) => Some(Rise(i, ArgMax(ndvi), MinReal(d[i] * 10.0, 1.0)))
  }

  /** The peak value is never below the value at onset. */
  lemma PeakDominatesOnset(ndvi: seq<real>, threshold: real)
    requires 0.0 <= threshold
    requires RapidRise(ndvi, threshold).Some?
    ensures ndvi[RapidRise(ndvi, threshold).value.onset] <= MaxOf(ndvi)
    ensures ndvi[RapidRise(ndvi, threshold).value.peak] == MaxOf(ndvi)
  {
  }

  /** A series that never rises by more than the threshold from one sample to
      the next yields no detection; in particular a non-increasing one. */
  lemma FlatSeriesHasNoRise(ndvi: seq<real>, threshold: real)
    requires 0.0 <= threshold
    requires forall i :: 0 <= i < |ndvi| - 1 ==> ndvi[i + 1] <= ndvi[i]
    ensures RapidRise(ndvi, threshold).None?
  {
  }

  /** Raising the threshold can only delay the onset (or lose it). */
  lemma OnsetMonotoneInThreshold(ndvi: seq<real>, low: real, high: real)
    requires 0.0 <= low <= high
    requires RapidRise(ndvi, high).Some?
    ensures RapidRise(ndvi, low).Some?
    ensures RapidRise(ndvi, low).value.onset <= RapidRise(ndvi, high).value.onset
  {
    var h := RapidRise(ndvi, high).value.onset;
    assert Step(ndvi, h) > low;
  }
}

=== FILE: helpers.dfy ===
/** The time-series and classification helpers of backend/utils/helpers.py:
    moving-average smoothing, gap interpolation, growing degree days, the
    threshold classifiers, coordinate and date-range validation, grid-cell
    aggregation and the start/end/length-of-season metrics.

    Dates are day numbers (see `Calendar.Ordinal`): `strptime` followed by a
    difference in `.days`, or by `timedelta(days=k)`, is integer arithmetic on
    them. */
module Helpers {
  import opened Common
  import opened Calendar

  // =====================================================================
  // smooth_timeseries
  // =====================================================================

  /** First index of the window around `i`: half a window back, never below 0. */
  function WindowStart(i: int, window: nat): int
  {
    MaxInt(0, i - window / 2)
  }

  /** One past the last index of the window around `i`, never beyond `n`. */
  function WindowEnd(n: int, i: int, window: nat): int
  {
    MinInt(n, i + window / 2 + 1)
  }

  /** The samples averaged for position `i`; the window shrinks at the edges
      instead of padding. */
  function Window(values: seq<real>, window: nat, i: int): (w: seq<real>)
    requires 0 <= i < |values|
    ensures 0 < |w| <= 2 * (window / 2) + 1
    ensures values[i] in w
    ensures forall k :: 0 <= k < |w| ==> w[k] in values
    ensures w == values[MaxInt(0, i - window / 2)..MinInt(|values|, i + window / 2 + 1)]
  {
    var lo := WindowStart(i, window);
    var hi := WindowEnd(|values|, i, window);
    assert values[i] == values[lo..hi][i - lo];
    values[lo..hi]
  }

  /** Mean of the window around `i`; it lies between the window's extremes. */
  function WindowMean(values: seq<real>, window: nat, i: int): (m: real)
    requires 0 <= i < |values|
    ensures m == Mean(Window(values, window, i))
    ensures MinOf(Window(values, window, i)) <= m <= MaxOf(Window(values, window, i))
  {
    var w := Window(values, window, i);
    MeanWithin(w, MinOf(w), MaxOf(w));
    Mean(w)
  }

  /** `smooth_timeseries`: a series shorter than the window comes back as it
      is; otherwise every sample is replaced by the mean of its window. */
  function Smooth(values: seq<real>, window: nat): (r: seq<real>)
    ensures |r| == |values|
    ensures |values| < window ==> r == values
    ensures window <= |values| ==> forall i :: 0 <= i < |values| ==>
      r[i] == Mean(Window(values, window, i))
    ensures window <= |values| ==> forall i :: 0 <= i < |values| ==>
      MinOf(Window(values, window, i)) <= r[i] <= MaxOf(Window(values, window, i))
  {
    if |values| < window then values
    else seq(|values|, i requires 0 <= i < |values| => WindowMean(values, window, i))
  }

  /** Smoothing never leaves the range of the input. */
  lemma SmoothWithinRange(values: seq<real>, window: nat, i: int)
    requires 0 <= i < |values|
    ensures MinOf(values) <= Smooth(values, window)[i] <= MaxOf(values)
  {
    if window <= |values| {
      var w := Window(values, window, i);
      assert MinOf(values) <= MinOf(w);
      assert MaxOf(w) <= MaxOf(values);
    } else {
      assert Smooth(values, window)[i] == values[i];
    }
  }

  /** A constant series is a fixed point of smoothing. */
  lemma SmoothConstant(values: seq<real>, window: nat, c: real)
    requires forall i :: 0 <= i < |values| ==> values[i] == c
    ensures Smooth(values, window) == values
  {
    if window <= |values| {
      var r := Smooth(values, window);
      forall i | 0 <= i < |values|
        ensures r[i] == values[i]
      {
        var w := Window(values, window, i);
        assert forall k :: 0 <= k < |w| ==> w[k] == c;
        MeanWithin(w, c, c);
      }
    }
  }

  /** With a window of 0 or 1 the window around `i` is `values[i]` alone. */
  lemma NarrowWindow(values: seq<real>, window: nat, i: int)
    requires window <= 1 && 0 <= i < |values|
    ensures Window(values, window, i) == [values[i]]
    ensures MinOf(Window(values, window, i)) == values[i] == MaxOf(Window(values, window, i))
  {
    assert WindowStart(i, window) == i && WindowEnd(|values|, i, window) == i + 1;
    assert values[i..i + 1] == [values[i]];
  }

  /** With a window of 0 or 1 no neighbour is averaged in: smoothing is the identity. */
  lemma SmoothNarrowIsIdentity(values: seq<real>, window: nat)
    requires window <= 1
    ensures Smooth(values, window) == values
  {
    var r := Smooth(values, window);
    forall i | 0 <= i < |values|
      ensures r[i] == values[i]
    {
      NarrowWindow(values, window, i);
    }
  }

  /** Away from the edges the window is centred and full: position `i` is the
      sum of the `2 * (window / 2) + 1` samples from `i - window / 2` to
      `i + window / 2`, divided by their number. */
  lemma SmoothInterior(values: seq<real>, window: nat, i: int)
    requires window <= |values|
    requires window / 2 <= i < |values| - window / 2
    ensures Window(values, window, i) == values[i - window / 2..i + window / 2 + 1]
    ensures |Window(values, window, i)| == 2 * (window / 2) + 1
    ensures Smooth(values, window)[i]
         == Sum(values[i - window / 2..i + window / 2 + 1]) / ((2 * (window / 2) + 1) as real)
  {
    var w := Window(values, window, i);
    assert w == values[i - window / 2..i + window / 2 + 1];
    assert Smooth(values, window)[i] == Mean(w);
  }

  /** At the first sample the window only reaches forward: `values[0]` and
      the `window / 2` samples after it (fewer when the series is short). */
  lemma SmoothLeftEdge(values: seq<real>, window: nat)
    requires 0 < |values| && window <= |values|
    ensures Window(values, window, 0) == values[..MinInt(|values|, window / 2 + 1)]
    ensures Smooth(values, window)[0] == Mean(values[..MinInt(|values|, window / 2 + 1)])
  {
  }

  // =====================================================================
  // interpolate_missing_values
  // =====================================================================

  /** One record of a time series: its date, the value under `value_key`, and
      whether the record was produced by interpolation. */
  datatype Observation = Observation(date: int, value: real, interpolated: bool)

  /** MODIS composites are 8 days apart; a gap above 16 days is filled. */
  const Cadence: int := 8
  const MaxGap: int := 16

  ghost predicate SortedByDate(s: seq<Observation>)
  {
    forall i, j :: 0 <= i < j < |s| ==> s[i].date <= s[j].date
  }

  function SameDate(d: int): Observation -> bool
  {
    (o: Observation) => o.date == d
  }

  function Observed(): Observation -> bool
  {
    (o: Observation) => !o.interpolated
  }

  /** Insert `x` before the first element dated on or after it. */
  function InsertByDate(x: Observation, s: seq<Observation>): (r: seq<Observation>)
    requires SortedByDate(s)
    ensures SortedByDate(r)
    ensures |r| == |s| + 1
    ensures multiset(r) == multiset(s) + multiset{x}
    ensures forall y :: y in r <==> y in s || y == x
  {
    if |s| == 0 then [x]
    else if x.date <= s[0].date then [x] + s
    else
      var rest := InsertByDate(x, s[1..]);
      assert s == [s[0]] + s[1..];
      HeadPrecedesInsert(x, s, rest);
      [s[0]] + rest
  }

  /** Inserting a later record into the tail keeps the head first. */
  lemma HeadPrecedesInsert(x: Observation, s: seq<Observation>, rest: seq<Observation>)
    requires SortedByDate(s) && |s| > 0 && s[0].date < x.date
    requires SortedByDate(rest)
    requires forall y :: y in rest <==> y in s[1..] || y == x
    ensures SortedByDate([s[0]] + rest)
  {
    forall j | 0 <= j < |rest|
      ensures s[0].date <= rest[j].date
    {
      assert rest[j] in rest;
      if rest[j] != x {
        var k :| 0 <= k < |s[1..]| && s[1..][k] == rest[j];
        assert s[k + 1] == rest[j];
      }
    }
    var r := [s[0]] + rest;
    forall i, j | 0 <= i < j < |r|
      ensures r[i].date <= r[j].date
    {
      assert r[j] == rest[j - 1];
      if i > 0 {
        assert r[i] == rest[i - 1];
      }
    }
  }

  /** Python's stable `sorted(timeseries, key=lambda x: x['date'])`. */
  function SortByDate(s: seq<Observation>): (r: seq<Observation>)
    ensures SortedByDate(r)
    ensures multiset(r) == multiset(s)
    ensures |r| == |s|
  {
    if |s| == 0 then []
    else
      assert s == [s[0]] + s[1..];
      InsertByDate(s[0], SortByDate(s[1..]))
  }

  lemma {:induction false} InsertStable(x: Observation, s: seq<Observation>, d: int)
    requires SortedByDate(s)
    ensures Filter(InsertByDate(x, s), SameDate(d))
         == (if x.date == d then [x] else []) + Filter(s, SameDate(d))
  {
    if |s| == 0 {
    } else if x.date <= s[0].date {
      assert ([x] + s)[1..] == s;
    } else {
      InsertStable(x, s[1..], d);
      var rest := InsertByDate(x, s[1..]);
      assert ([s[0]] + rest)[1..] == rest;
    }
  }

  /** The sort is stable: records sharing a date keep their input order. */
  lemma {:induction false} SortStable(s: seq<Observation>, d: int)
    ensures Filter(SortByDate(s), SameDate(d)) == Filter(s, SameDate(d))
  {
    if |s| > 0 {
      SortStable(s[1..], d);
      InsertStable(s[0], SortByDate(s[1..]), d);
    }
  }

  /** `a + (b - a) * t` lies between `a` and `b` for `t` in [0, 1]. */
  lemma LerpBetween(a: real, b: real, t: real)
    requires 0.0 <= t <= 1.0
    ensures MinReal(a, b) <= a + (b - a) * t <= MaxReal(a, b)
  {
    var d := b - a;
    assert a + (b - a) * t == a + d * t;
    if a <= b {
      MulLeMono(d, 0.0, t);
      MulLeMono(d, t, 1.0);
      assert 0.0 <= d * t <= d;
      assert MaxReal(a, b) == b;
      assert a <= a + d * t <= b;
    } else {
      MulLeMono(-d, 0.0, t);
      MulLeMono(-d, t, 1.0);
      assert (-d) * t == -(d * t);
      assert d <= d * t <= 0.0;
      assert MinReal(a, b) == b;
      assert b <= a + d * t <= a;
    }
  }

  /** Fraction `j / n` of the way from `a` to `b`. */
  function Lerp(a: real, b: real, j: int, n: int): (v: real)
    requires 0 <= j <= n && 0 < n
    ensures MinReal(a, b) <= v <= MaxReal(a, b)
    ensures v == a + (b - a) * ((j as real) / (n as real))
  {
    var t := (j as real) / (n as real);
    assert 0.0 <= t <= 1.0 by {
      DivideBounds(j as real, n as real, 0.0, 1.0);
    }
    LerpBetween(a, b, t);
    a + (b - a) * t
  }

  /** The records inserted between two date-sorted neighbours `a` and `b`. */
  function GapPoints(a: Observation, b: Observation): (g: seq<Observation>)
    ensures b.date - a.date <= MaxGap ==> g == []
    ensures b.date - a.date > MaxGap ==> |g| == (b.date - a.date) / Cadence - 1 > 0
    ensures forall j :: 0 <= j < |g| ==>
      g[j].date == a.date + Cadence * (j + 1) && a.date < g[j].date < b.date
    ensures forall j :: 0 <= j < |g| ==>
      g[j].interpolated && MinReal(a.value, b.value) <= g[j].value <= MaxReal(a.value, b.value)
  {
    var gap := b.date - a.date;
    if gap > MaxGap then
      var n := gap / Cadence;
      seq(n - 1, j requires 0 <= j < n - 1 =>
        Observation(a.date + Cadence * (j + 1), Lerp(a.value, b.value, j + 1, n), true))
    else []
  }

  /** Inserted values step evenly from `a` to `b`: each is `(b - a) / n` above
      the previous one, with `n = gap // 8`. */
  lemma GapPointsEvenlySpaced(a: Observation, b: Observation, j: int)
    requires 0 <= j < |GapPoints(a, b)|
    ensures var n := (b.date - a.date) / Cadence;
      var step := (b.value - a.value) / (n as real);
      GapPoints(a, b)[j].value
        == (if j == 0 then a.value else GapPoints(a, b)[j - 1].value) + step
  {
    var n := (b.date - a.date) / Cadence;
    var g := GapPoints(a, b);
    assert b.date - a.date > MaxGap;
    assert g[j].value == Lerp(a.value, b.value, j + 1, n);
    LerpStep(a.value, b.value, j, n);
    if j > 0 {
      assert g[j - 1].value == Lerp(a.value, b.value, j, n);
    }
  }

  /** Each further fraction `1 / n` of the way adds `(b - a) / n`. */
  lemma LerpStep(a: real, b: real, j: int, n: int)
    requires 0 <= j < n
    ensures Lerp(a, b, j + 1, n) == Lerp(a, b, j, n) + (b - a) / (n as real)
    ensures Lerp(a, b, 0, n) == a
  {
    var d := b - a;
    var nr := n as real;
    var jr := j as real;
    assert (j + 1) as real == jr + 1.0;
    assert (jr + 1.0) / nr == jr / nr + 1.0 / nr;
    assert d * (jr / nr + 1.0 / nr) == d * (jr / nr) + d * (1.0 / nr);
    assert d * (1.0 / nr) == d / nr;
    assert d * ((0 as real) / nr) == 0.0;
  }

  lemma SortedAppend(a: seq<Observation>, b: seq<Observation>)
    requires SortedByDate(a) && SortedByDate(b)
    requires forall i, j :: 0 <= i < |a| && 0 <= j < |b| ==> a[i].date <= b[j].date
    ensures SortedByDate(a + b)
  {
  }

  /** The loop over sorted records: each record, followed by the points
      interpolated between it and its successor. */
  function FillGaps(s: seq<Observation>): (r: seq<Observation>)
    ensures |s| <= |r|
    ensures |s| > 0 ==> r[0] == s[0]
  {
    if |s| <= 1 then s
    else [s[0]] + GapPoints(s[0], s[1]) + FillGaps(s[1..])
  }

  /** Every input record survives filling, and every added record is interpolated. */
  lemma {:induction false} FillContents(s: seq<Observation>)
    ensures multiset(s) <= multiset(FillGaps(s))
    ensures forall o :: o in FillGaps(s) && o !in s ==> o.interpolated
  {
    if |s| > 1 {
      FillContents(s[1..]);
      var g := GapPoints(s[0], s[1]);
      var rest := FillGaps(s[1..]);
      assert s == [s[0]] + s[1..];
      assert FillGaps(s) == [s[0]] + g + rest;
      assert multiset(FillGaps(s)) == multiset([s[0]]) + multiset(g) + multiset(rest);
      forall o | o in FillGaps(s) && o !in s
        ensures o.interpolated
      {
        assert o in g || o in rest;
      }
    }
  }

  /** Filling a date-sorted series keeps it date-sorted. */
  lemma {:induction false} FillSorted(s: seq<Observation>)
    requires SortedByDate(s)
    ensures SortedByDate(FillGaps(s))
  {
    if |s| > 1 {
      FillSorted(s[1..]);
      var g := GapPoints(s[0], s[1]);
      var rest := FillGaps(s[1..]);
      assert forall k :: 0 <= k < |rest| ==> s[1].date <= rest[k].date by {
        assert rest[0] == s[1];
      }
      assert SortedByDate([s[0]] + g);
      SortedAppend([s[0]] + g, rest);
    }
  }

  /** Neighbours at most 16 days apart receive nothing in between. */
  lemma {:induction false} FillDenseUnchanged(s: seq<Observation>)
    requires forall k :: 0 <= k < |s| - 1 ==> s[k + 1].date - s[k].date <= MaxGap
    ensures FillGaps(s) == s
  {
    if |s| > 1 {
      FillDenseUnchanged(s[1..]);
      assert [s[0]] + s[1..] == s;
    }
  }

  /** Dropping the interpolated records gives back the observed ones, in order. */
  lemma {:induction false} FillKeepsObserved(s: seq<Observation>)
    ensures Filter(FillGaps(s), Observed()) == Filter(s, Observed())
  {
    if |s| > 1 {
      var g := GapPoints(s[0], s[1]);
      FillKeepsObserved(s[1..]);
      FilterAppend([s[0]] + g, FillGaps(s[1..]), Observed());
      FilterAppend([s[0]], g, Observed());
      FilterNone(g, Observed());
      FilterAppend([s[0]], s[1..], Observed());
      assert [s[0]] + s[1..] == s;
    }
  }

  /** Number of records inserted after each record but the last. */
  function GapSizes(s: seq<Observation>): (r: seq<int>)
    ensures |r| == MaxInt(0, |s| - 1)
    ensures forall i :: 0 <= i < |r| ==> r[i] == |GapPoints(s[i], s[i + 1])|
  {
    if |s| <= 1 then []
    else seq(|s| - 1, i requires 0 <= i < |s| - 1 => |GapPoints(s[i], s[i + 1])|)
  }

  /** The filled series holds every record interpolated between every pair of
      neighbours. */
  lemma {:induction false} FillComplete(s: seq<Observation>, i: int)
    requires 0 <= i < |s| - 1
    ensures forall o :: o in GapPoints(s[i], s[i + 1]) ==> o in FillGaps(s)
  {
    if i > 0 {
      FillComplete(s[1..], i - 1);
      assert s[1..][i - 1] == s[i] && s[1..][i] == s[i + 1];
    }
  }

  /** Nothing else is added: every record of the filled series is an input
      record or was interpolated between some pair of neighbours. */
  lemma {:induction false} FillSound(s: seq<Observation>)
    ensures forall o :: o in FillGaps(s) ==>
      o in s || exists i :: 0 <= i < |s| - 1 && o in GapPoints(s[i], s[i + 1])
  {
    if |s| > 1 {
      FillSound(s[1..]);
      forall o | o in FillGaps(s)
        ensures o in s || exists i :: 0 <= i < |s| - 1 && o in GapPoints(s[i], s[i + 1])
      {
        var g := GapPoints(s[0], s[1]);
        if o in FillGaps(s[1..]) {
          if o in s[1..] {
          } else {
            var i :| 0 <= i < |s[1..]| - 1 && o in GapPoints(s[1..][i], s[1..][i + 1]);
            assert s[1..][i] == s[i + 1] && s[1..][i + 1] == s[i + 2];
          }
        } else if o in g {
          assert o in GapPoints(s[0], s[1]);
        }
      }
    }
  }

  /** The filled series has the input's records plus, for each pair of
      neighbours, the records interpolated between them. */
  lemma {:induction false} FillLength(s: seq<Observation>)
    ensures |FillGaps(s)| == |s| + SumInt(GapSizes(s))
  {
    if |s| > 1 {
      FillLength(s[1..]);
      assert GapSizes(s)[1..] == GapSizes(s[1..]);
    }
  }

  /** `interpolate_missing_values`: sort by date, then fill every gap above
      16 days with 8-day-spaced interpolated records. */
  function InterpolateMissingValues(ts: seq<Observation>): (r: seq<Observation>)
    ensures r == [] <==> ts == []
    ensures SortedByDate(r)
    ensures multiset(ts) <= multiset(r)
    ensures forall o :: o in r && o !in ts ==> o.interpolated
  {
    if |ts| == 0 then []
    else
      var sorted := SortByDate(ts);
      FillSorted(sorted);
      FillContents(sorted);
      assert forall o :: o in sorted <==> o in ts by {
        assert forall o :: o in sorted <==> o in multiset(sorted);
        assert forall o :: o in ts <==> o in multiset(ts);
      }
      FillGaps(sorted)
  }

  /** `interpolate_missing_values` is the fill of the date-sorted input. */
  lemma InterpolateIsFill(ts: seq<Observation>)
    ensures InterpolateMissingValues(ts) == FillGaps(SortByDate(ts))
  {
  }

  /** `interpolate_missing_values` inserts, for every pair of neighbours in date
      order, the `gap // 8 - 1` records of `GapPoints`. */
  lemma InterpolateComplete(ts: seq<Observation>, i: int)
    requires 0 <= i < |SortByDate(ts)| - 1
    ensures forall o :: o in GapPoints(SortByDate(ts)[i], SortByDate(ts)[i + 1]) ==>
      o in InterpolateMissingValues(ts)
  {
    InterpolateIsFill(ts);
    FillComplete(SortByDate(ts), i);
  }

  /** Nothing else is added: each record of the result is an input record or
      was interpolated between a pair of date-sorted neighbours. */
  lemma InterpolateSound(ts: seq<Observation>)
    ensures var s := SortByDate(ts);
      forall o :: o in InterpolateMissingValues(ts) ==>
        o in ts || exists i :: 0 <= i < |s| - 1 && o in GapPoints(s[i], s[i + 1])
  {
    InterpolateIsFill(ts);
    FillSound(SortByDate(ts));
    SortKeepsMembers(ts);
  }

  /** The result has the input's records plus, for each pair of date-sorted
      neighbours, the records interpolated between them. */
  lemma InterpolateLength(ts: seq<Observation>)
    ensures |InterpolateMissingValues(ts)| == |ts| + SumInt(GapSizes(SortByDate(ts)))
  {
    InterpolateIsFill(ts);
    FillLength(SortByDate(ts));
  }

  /** Sorting neither adds nor drops a record. */
  lemma SortKeepsMembers(ts: seq<Observation>)
    ensures forall o :: o in SortByDate(ts) <==> o in ts
  {
    var s := SortByDate(ts);
    assert forall o :: o in s <==> o in multiset(s);
    assert forall o :: o in ts <==> o in multiset(ts);
  }

  /** The observed (non-interpolated) records of the result are exactly those
      of the input, in date order, records sharing a date in input order. */
  lemma InterpolateKeepsObserved(ts: seq<Observation>, d: int)
    ensures Filter(InterpolateMissingValues(ts), Observed()) == Filter(SortByDate(ts), Observed())
    ensures Filter(SortByDate(ts), SameDate(d)) == Filter(ts, SameDate(d))
  {
    FillKeepsObserved(SortByDate(ts));
    SortStable(ts, d);
  }

  // =====================================================================
  // calculate_growing_degree_days
  // =====================================================================

  /** Heat accumulated on one day: the mean temperature above the base, never negative. */
  function DailyGdd(tmin: real, tmax: real, base: real): (g: real)
    ensures 0.0 <= g && (tmin + tmax) / 2.0 - base <= g
    ensures g == 0.0 || g == (tmin + tmax) / 2.0 - base
  {
    MaxReal(0.0, (tmin + tmax) / 2.0 - base)
  }

  /** `calculate_growing_degree_days`: the day-by-day values over `zip(tmin, tmax)`,
      which stops at the shorter list. */
  function GrowingDegreeDays(tmin: seq<real>, tmax: seq<real>, base: real): (r: seq<real>)
    ensures |r| == MinInt(|tmin|, |tmax|)
    ensures forall i :: 0 <= i < |r| ==> r[i] == DailyGdd(tmin[i], tmax[i], base)
  {
    if |tmin| == 0 || |tmax| == 0 then []
    else [DailyGdd(tmin[0], tmax[0], base)] + GrowingDegreeDays(tmin[1..], tmax[1..], base)
  }

  /** A higher base temperature never yields more degree days on any day. */
  lemma GddAntitoneInBase(tmin: seq<real>, tmax: seq<real>, low: real, high: real, i: int)
    requires low <= high
    requires 0 <= i < MinInt(|tmin|, |tmax|)
    ensures GrowingDegreeDays(tmin, tmax, high)[i] <= GrowingDegreeDays(tmin, tmax, low)[i]
  {
  }

  // =====================================================================
  // calculate_phenology_stage and format_confidence_score
  // =====================================================================

  datatype Stage = Dormant | EarlyGreenup | Greenup | PeakGreen | Blooming | Mature

  /** Position of a stage in the seasonal order. */
  function StageRank(s: Stage): nat
  {
    match s
    case Dormant => 0
    case EarlyGreenup => 1
    case Greenup => 2
    case PeakGreen => 3
    case Blooming => 4
    case Mature => 5
  }

  /** `calculate_phenology_stage`: NDVI cut at 0.2, 0.4, 0.6, 0.75 and 0.85. */
  function PhenologyStage(ndvi: real): (s: Stage)
    ensures s == Dormant <==> ndvi < 0.2
    ensures s == EarlyGreenup <==> 0.2 <= ndvi < 0.4
    ensures s == Greenup <==> 0.4 <= ndvi < 0.6
    ensures s == PeakGreen <==> 0.6 <= ndvi < 0.75
    ensures s == Blooming <==> 0.75 <= ndvi < 0.85
    ensures s == Mature <==> 0.85 <= ndvi
  {
    if ndvi < 0.2 then Dormant
    else if ndvi < 0.4 then EarlyGreenup
    else if ndvi < 0.6 then Greenup
    else if ndvi < 0.75 then PeakGreen
    else if ndvi < 0.85 then Blooming
    else Mature
  }

  /** A greener pixel is never at an earlier stage. */
  lemma StageMonotone(a: real, b: real)
    requires a <= b
    ensures StageRank(PhenologyStage(a)) <= StageRank(PhenologyStage(b))
  {
  }

  /** Every stage is reached by some NDVI: the classifier is onto. */
  lemma StageOnto(s: Stage)
    ensures exists x: real :: PhenologyStage(x) == s
  {
    match s
    case Dormant => assert PhenologyStage(0.0) == s;
    case EarlyGreenup => assert PhenologyStage(0.3) == s;
    case Greenup => assert PhenologyStage(0.5) == s;
    case PeakGreen => assert PhenologyStage(0.7) == s;
    case Blooming => assert PhenologyStage(0.8) == s;
    case Mature => assert PhenologyStage(0.9) == s;
  }

  datatype ConfidenceText = VeryLow | Low | Medium | High | VeryHigh

  function ConfidenceRank(c: ConfidenceText): nat
  {
    match c
    case VeryLow => 0
    case Low => 1
    case Medium => 2
    case High => 3
    case VeryHigh => 4
  }

  /** `format_confidence_score`: cut at 0.3, 0.5, 0.7 and 0.9, each inclusive from below. */
  function FormatConfidenceScore(score: real): (c: ConfidenceText)
    ensures c == VeryHigh <==> 0.9 <= score
    ensures c == High <==> 0.7 <= score < 0.9
    ensures c == Medium <==> 0.5 <= score < 0.7
    ensures c == Low <==> 0.3 <= score < 0.5
    ensures c == VeryLow <==> score < 0.3
  {
    if score >= 0.9 then VeryHigh
    else if score >= 0.7 then High
    else if score >= 0.5 then Medium
    else if score >= 0.3 then Low
    else VeryLow
  }

  /** A higher score never reads as less confident. */
  lemma ConfidenceMonotone(a: real, b: real)
    requires a <= b
    ensures ConfidenceRank(FormatConfidenceScore(a)) <= ConfidenceRank(FormatConfidenceScore(b))
  {
  }

  // =====================================================================
  // validate_coordinates and parse_date_range
  // =====================================================================

  /** `validate_coordinates`: latitude in [-90, 90] and longitude in [-180, 180], inclusive. */
  function ValidateCoordinates(lat: real, lon: real): (ok: bool)
    ensures ok <==> AbsReal(lat) <= 90.0 && AbsReal(lon) <= 180.0
  {
    -90.0 <= lat <= 90.0 && -180.0 <= lon <= 180.0
  }

  datatype DateRangeError = InvalidDateFormat | StartAfterEnd

  /** `parse_date_range`. Each argument is the outcome of `strptime(..., '%Y-%m-%d')`:
      None stands for a string it rejects. A range that runs backwards is an error;
      a one-day range is not. */
  function ParseDateRange(start: Option<Date>, end: Option<Date>): (r: Result<(Date, Date), DateRangeError>)
    ensures r.Ok? <==> start.Some? && end.Some? && Ordinal(start.value) <= Ordinal(end.value)
    ensures r.Ok? ==> r.value == (start.value, end.value)
    ensures r == Err(InvalidDateFormat) <==> start.None? || end.None?
  {
    match (start, end)
    case (Some(s), Some(e)) =>
      OrdinalIsChronological(e, s);
      if Before(e, s) then Err(StartAfterEnd) else Ok((s, e))
    case _ => Err(InvalidDateFormat)
  }

  // =====================================================================
  // get_season
  // =====================================================================

  datatype Season = Winter | Spring | Summer | Fall

  /** The season half a year away. */
  function Opposite(s: Season): Season
  {
    match s
    case Winter => Summer
    case Summer => Winter
    case Spring => Fall
    case Fall => Spring
  }

  /** `get_season`: meteorological seasons; any hemisphere other than
      "north" is treated as the southern one, and a month outside 1..12 falls
      through to the last branch. */
  function GetSeason(month: int, hemisphere: string): (s: Season)
    ensures hemisphere == "north" ==> (s == Winter <==> month in {12, 1, 2})
    ensures hemisphere == "north" ==> (s == Spring <==> month in {3, 4, 5})
    ensures hemisphere == "north" ==> (s == Summer <==> month in {6, 7, 8})
    ensures hemisphere == "north" ==> (s == Fall <==> !(1 <= month <= 8 || month == 12))
    ensures hemisphere != "north" ==> (s == Summer <==> month in {12, 1, 2})
    ensures hemisphere != "north" ==> (s == Fall <==> month in {3, 4, 5})
    ensures hemisphere != "north" ==> (s == Winter <==> month in {6, 7, 8})
    ensures hemisphere != "north" ==> (s == Spring <==> !(1 <= month <= 8 || month == 12))
  {
    if hemisphere == "north" then
      if month in {12, 1, 2} then Winter
      else if month in {3, 4, 5} then Spring
      else if month in {6, 7, 8} then Summer
      else Fall
    else
      if month in {12, 1, 2} then Summer
      else if month in {3, 4, 5} then Fall
      else if month in {6, 7, 8} then Winter
      else Spring
  }

  /** The southern season is always the opposite of the northern one. */
  lemma HemispheresOpposite(month: int, hemisphere: string)
    requires hemisphere != "north"
    ensures GetSeason(month, hemisphere) == Opposite(GetSeason(month, "north"))
  {
  }

  /** Three consecutive calendar months share a season in either hemisphere. */
  lemma SeasonsSpanThreeMonths(month: int, hemisphere: string)
    requires month in {3, 6, 9}
    ensures GetSeason(month, hemisphere) == GetSeason(month + 1, hemisphere)
    ensures GetSeason(month, hemisphere) == GetSeason(month + 2, hemisphere)
    ensures GetSeason(month, hemisphere) != GetSeason(month - 1, hemisphere)
  {
  }

  // =====================================================================
  // aggregate_by_region
  // =====================================================================

  datatype DataPoint = DataPoint(lat: real, lon: real, ndvi: real)

  /** A grid cell, identified by the truncated quotients `int(lat / grid_size)`
      and `int(lon / grid_size)`. */
  datatype CellKey = CellKey(latIndex: int, lonIndex: int)

  datatype GridCell = GridCell(lat: real, lon: real, points: seq<DataPoint>, count: nat,
                               avgNdvi: real, maxNdvi: real)

  datatype AggregateError = ZeroGridSize

  function CellOf(p: DataPoint, gridSize: real): CellKey
    requires gridSize != 0.0
  {
    CellKey(Trunc(p.lat / gridSize), Trunc(p.lon / gridSize))
  }

  function InCell(k: CellKey, gridSize: real): DataPoint -> bool
    requires gridSize != 0.0
  {
    (p: DataPoint) => CellOf(p, gridSize) == k
  }

  /** Append point `p` to the list of cell `k`, starting the list if needed. */
  function AddPoint(g: map<CellKey, seq<DataPoint>>, k: CellKey, p: DataPoint): map<CellKey, seq<DataPoint>>
  {
    g[k := (if k in g then g[k] else []) + [p]]
  }

  /** The first loop of `aggregate_by_region`: append each point to the list of its cell. */
  function Group(points: seq<DataPoint>, gridSize: real): (g: map<CellKey, seq<DataPoint>>)
    requires gridSize != 0.0
    ensures forall k :: k in g ==> g[k] == Filter(points, InCell(k, gridSize)) && |g[k]| > 0
    ensures forall i :: 0 <= i < |points| ==> CellOf(points[i], gridSize) in g
    decreases |points|, 1
  {
    if |points| == 0 then map[]
    else
      var last := points[|points| - 1];
      GroupStep(points, gridSize);
      AddPoint(Group(points[..|points| - 1], gridSize), CellOf(last, gridSize), last)
  }

  /** One more point: extending the grouping of all but the last point by the
      last point groups every point. */
  lemma GroupStep(points: seq<DataPoint>, gridSize: real)
    requires gridSize != 0.0 && |points| > 0
    ensures var g := AddPoint(Group(points[..|points| - 1], gridSize),
                              CellOf(points[|points| - 1], gridSize), points[|points| - 1]);
      && (forall c :: c in g ==> g[c] == Filter(points, InCell(c, gridSize)) && |g[c]| > 0)
      && (forall i :: 0 <= i < |points| ==> CellOf(points[i], gridSize) in g)
    decreases |points|, 0
  {
    var g0 := Group(points[..|points| - 1], gridSize);
    var g := AddPoint(g0, CellOf(points[|points| - 1], gridSize), points[|points| - 1]);
    forall i | 0 <= i < |points| - 1
      ensures CellOf(points[i], gridSize) in g0
    {
      assert points[i] == points[..|points| - 1][i];
    }
    forall c | c in g
      ensures g[c] == Filter(points, InCell(c, gridSize)) && |g[c]| > 0
    {
      GroupCellStep(points, gridSize, g0, c);
    }
  }

  /** The list of one cell after appending the last point to a grouping of
      the others. */
  lemma GroupCellStep(points: seq<DataPoint>, gridSize: real,
                      g0: map<CellKey, seq<DataPoint>>, c: CellKey)
    requires gridSize != 0.0 && |points| > 0
    requires forall k :: k in g0 ==>
      g0[k] == Filter(points[..|points| - 1], InCell(k, gridSize)) && |g0[k]| > 0
    requires forall i :: 0 <= i < |points| - 1 ==> CellOf(points[i], gridSize) in g0
    requires c in AddPoint(g0, CellOf(points[|points| - 1], gridSize), points[|points| - 1])
    ensures AddPoint(g0, CellOf(points[|points| - 1], gridSize), points[|points| - 1])[c]
         == Filter(points, InCell(c, gridSize))
    ensures |AddPoint(g0, CellOf(points[|points| - 1], gridSize), points[|points| - 1])[c]| > 0
  {
    var init := points[..|points| - 1];
    var p := points[|points| - 1];
    var q := InCell(c, gridSize);
    assert points == init + [p];
    FilterAppend(init, [p], q);
    assert Filter([p], q) == if q(p) then [p] else [] by {
      assert [p][1..] == [];
    }
    if c == CellOf(p, gridSize) && c !in g0 {
      forall i | 0 <= i < |init|
        ensures !q(init[i])
      {
        assert init[i] == points[i];
      }
      FilterNone(init, q);
    }
  }

  function NdviValues(points: seq<DataPoint>): (v: seq<real>)
    ensures |v| == |points|
    ensures forall i :: 0 <= i < |points| ==> v[i] == points[i].ndvi
  {
    seq(|points|, i requires 0 <= i < |points| => points[i].ndvi)
  }

  /** A cell's statistics describe its own points: the count is their number,
      the average their NDVI mean, and the maximum one of their values that
      bounds them all. */
  ghost predicate SummarizesPoints(c: GridCell)
  {
    && c.count == |c.points| > 0
    && c.avgNdvi == Mean(NdviValues(c.points))
    && MinOf(NdviValues(c.points)) <= c.avgNdvi <= c.maxNdvi
    && c.maxNdvi in NdviValues(c.points)
    && (forall j :: 0 <= j < |c.points| ==> c.points[j].ndvi <= c.maxNdvi)
  }

  function MakeCell(k: CellKey, points: seq<DataPoint>, gridSize: real): (c: GridCell)
    requires |points| > 0
    ensures c.count == |points| && c.points == points
    ensures forall i :: 0 <= i < |points| ==> points[i].ndvi <= c.maxNdvi
    ensures c.maxNdvi in NdviValues(points)
    ensures c.avgNdvi == Mean(NdviValues(points))
    ensures MinOf(NdviValues(points)) <= c.avgNdvi <= c.maxNdvi
    ensures SummarizesPoints(c)
    ensures c.lat == k.latIndex as real * gridSize && c.lon == k.lonIndex as real * gridSize
  {
    var v := NdviValues(points);
    MeanWithin(v, MinOf(v), MaxOf(v));
    GridCell(k.latIndex as real * gridSize, k.lonIndex as real * gridSize,
             points, |points|, Mean(v), MaxOf(v))
  }

  /** The second loop of `aggregate_by_region`: one cell per group, with
      its statistics. */
  function Cells(g: map<CellKey, seq<DataPoint>>, gridSize: real): (cells: map<CellKey, GridCell>)
    requires forall k :: k in g ==> |g[k]| > 0
    ensures cells.Keys == g.Keys
    ensures forall k :: k in cells ==> cells[k].points == g[k] && SummarizesPoints(cells[k])
    ensures forall k :: k in cells ==>
      cells[k].lat == k.latIndex as real * gridSize && cells[k].lon == k.lonIndex as real * gridSize
  {
    map k | k in g :: MakeCell(k, g[k], gridSize)
  }

  /** `aggregate_by_region`. Dividing by a zero grid size raises, but only
      once there is a point to place. */
  function AggregateByRegion(points: seq<DataPoint>, gridSize: real)
    : (r: Result<map<CellKey, GridCell>, AggregateError>)
    ensures r.Err? <==> gridSize == 0.0 && |points| > 0
    ensures r.Ok? && |points| > 0 ==> forall i :: 0 <= i < |points| ==>
      CellOf(points[i], gridSize) in r.value
    ensures r.Ok? && |points| > 0 ==> forall k :: k in r.value ==>
      r.value[k].points == Filter(points, InCell(k, gridSize)) && SummarizesPoints(r.value[k])
    ensures r.Ok? ==> forall k :: k in r.value ==>
      r.value[k].lat == k.latIndex as real * gridSize && r.value[k].lon == k.lonIndex as real * gridSize
  {
    if |points| == 0 then Ok(map[])
    else if gridSize == 0.0 then Err(ZeroGridSize)
    else
      Ok(Cells(Group(points, gridSize), gridSize))
  }

  // =====================================================================
  // PhenologyMetrics: calculate_sos, calculate_eos, calculate_los
  // =====================================================================

  /** A record of a season series; `ndvi` is None when the key is absent. */
  datatype SeasonSample = SeasonSample(date: int, ndvi: Option<real>)

  /** `item.get('ndvi', 0)`. */
  function NdviOrZero(x: SeasonSample): real
  {
    match x.ndvi
    case Some(v) => v
    case None => 0.0
  }

  /** Index of the first record at or above the threshold. */
  function SosIndex(ts: seq<SeasonSample>, threshold: real): (r: Option<nat>)
    ensures r.Some? ==> r.value < |ts| && NdviOrZero(ts[r.value]) >= threshold
    ensures r.Some? ==> forall j :: 0 <= j < r.value ==> NdviOrZero(ts[j]) < threshold
    ensures r.None? <==> forall j :: 0 <= j < |ts| ==> NdviOrZero(ts[j]) < threshold
  {
    if |ts| == 0 then None
    else if NdviOrZero(ts[0]) >= threshold then Some(0)
    else
      match SosIndex(ts[1..], threshold)
      case None => None
      case Some(k) => Some(k + 1)
  }

  /** Index of the last record at or above the threshold (the reversed scan). */
  function EosIndex(ts: seq<SeasonSample>, threshold: real): (r: Option<nat>)
    ensures r.Some? ==> r.value < |ts| && NdviOrZero(ts[r.value]) >= threshold
    ensures r.Some? ==> forall j :: r.value < j < |ts| ==> NdviOrZero(ts[j]) < threshold
    ensures r.None? <==> forall j :: 0 <= j < |ts| ==> NdviOrZero(ts[j]) < threshold
  {
    if |ts| == 0 then None
    else if NdviOrZero(ts[|ts| - 1]) >= threshold then Some(|ts| - 1)
    else EosIndex(ts[..|ts| - 1], threshold)
  }

  function DateAt(ts: seq<SeasonSample>, i: Option<nat>): Option<int>
    requires i.Some? ==> i.value < |ts|
  {
    match i
    case Some(k) => Some(ts[k].date)
    case None => None
  }

  /** Record `i` is the first at or above the threshold. */
  ghost predicate FirstAbove(ts: seq<SeasonSample>, threshold: real, i: int)
    requires 0 <= i < |ts|
  {
    NdviOrZero(ts[i]) >= threshold && forall j :: 0 <= j < i ==> NdviOrZero(ts[j]) < threshold
  }

  /** Record `i` is the last at or above the threshold. */
  ghost predicate LastAbove(ts: seq<SeasonSample>, threshold: real, i: int)
    requires 0 <= i < |ts|
  {
    NdviOrZero(ts[i]) >= threshold && forall j :: i < j < |ts| ==> NdviOrZero(ts[j]) < threshold
  }

  /** `calculate_sos`: the date of the first record at or above the threshold. */
  function CalculateSos(ts: seq<SeasonSample>, threshold: real): (r: Option<int>)
    ensures r.None? <==> forall j :: 0 <= j < |ts| ==> NdviOrZero(ts[j]) < threshold
    ensures r.Some? ==> exists i :: 0 <= i < |ts| && ts[i].date == r.value && FirstAbove(ts, threshold, i)
  {
    DateAt(ts, SosIndex(ts, threshold))
  }

  /** `calculate_eos`: the date of the last record at or above the threshold. */
  function CalculateEos(ts: seq<SeasonSample>, threshold: real): (r: Option<int>)
    ensures r.None? <==> forall j :: 0 <= j < |ts| ==> NdviOrZero(ts[j]) < threshold
    ensures r.Some? ==> exists i :: 0 <= i < |ts| && ts[i].date == r.value && LastAbove(ts, threshold, i)
  {
    DateAt(ts, EosIndex(ts, threshold))
  }

  /** `calculate_los`: days from start to end of season, None when either is missing. */
  function CalculateLos(sos: Option<int>, eos: Option<int>): (r: Option<int>)
    ensures r.None? <==> sos.None? || eos.None?
    ensures r.Some? ==> sos.value + r.value == eos.value
  {
    if sos.None? || eos.None? then None else Some(eos.value - sos.value)
  }

  /** Start and end of season are found together, and the start record never
      comes after the end record. */
  lemma SosEosAgree(ts: seq<SeasonSample>, threshold: real)
    ensures SosIndex(ts, threshold).None? <==> EosIndex(ts, threshold).None?
    ensures SosIndex(ts, threshold).Some? ==>
      SosIndex(ts, threshold).value <= EosIndex(ts, threshold).value
  {
  }

  ghost predicate SeasonSorted(ts: seq<SeasonSample>)
  {
    forall i, j :: 0 <= i < j < |ts| ==> ts[i].date <= ts[j].date
  }

  /** On a date-ordered series the season length is never negative, and it is
      present exactly when some record reaches the threshold. */
  lemma LosNonNegative(ts: seq<SeasonSample>, threshold: real)
    requires SeasonSorted(ts)
    ensures var los := CalculateLos(CalculateSos(ts, threshold), CalculateEos(ts, threshold));
      (los.Some? <==> exists j :: 0 <= j < |ts| && NdviOrZero(ts[j]) >= threshold)
      && (los.Some? ==> los.value >= 0)
  {
    SosEosAgree(ts, threshold);
  }
}

=== FILE: nasa_service.dfy ===
/** backend/services/nasa_api.py, `RealNASAEarthDataService`: the date strings
    exchanged with NASA POWER, the cumulative growing degree days of
    `estimate_ndvi_from_weather`, and `detect_bloom_real`, which runs the
    shared derivative detector over the weather-derived NDVI series.

    The HTTP calls are left out: a fetch is its outcome, None for a failed
    request or a response without data. The seasonal, temperature and
    precipitation factors and the noise of the NDVI estimate are a parameter
    (`ndviAt`), as is the detector's threshold. */
module NasaService {
  import opened Common
  import opened Derivative
  import App

  // =====================================================================
  // Date strings: `YYYY-MM-DD` in queries, `YYYYMMDD` in responses
  // =====================================================================

  predicate IsDigit(c: char)
  {
    '0' <= c <= '9'
  }

  /** Dashes removed (`start_date.replace('-', '')`). */
  function StripDashes(s: string): (r: string)
    ensures |r| <= |s|
    ensures '-' !in r
    ensures forall c :: c != '-' ==> multiset(r)[c] == multiset(s)[c]
  {
    FilterMembers(s, (c: char) => c != '-');
    Filter(s, (c: char) => c != '-')
  }

  /** Stripping works piece by piece and keeps the order of what it keeps. */
  lemma StripDashesAppend(a: string, b: string)
    ensures StripDashes(a + b) == StripDashes(a) + StripDashes(b)
  {
    FilterAppend(a, b, (c: char) => c != '-');
  }

  /** Python's clamped slice `s[lo:hi]` for 0 <= lo <= hi. */
  function Slice(s: string, lo: nat, hi: nat): (r: string)
    requires lo <= hi
    ensures |r| == MaxInt(0, MinInt(hi, |s|) - MinInt(lo, |s|))
  {
    s[MinInt(lo, |s|)..MinInt(hi, |s|)]
  }

  /** `f"{date[:4]}-{date[4:6]}-{date[6:]}"`: two dashes inserted after the
      fourth and sixth characters (fewer characters are taken as they are). */
  function ReformatCompactDate(d: string): (r: string)
    ensures |r| == |d| + 2
    ensures |d| >= 6 ==> (r[..4] == d[..4] && r[4] == '-' && r[5..7] == d[4..6]
      && r[7] == '-' && r[8..] == d[6..])
  {
    Slice(d, 0, 4) + "-" + Slice(d, 4, 6) + "-" + d[MinInt(6, |d|)..]
  }

  predicate IsIsoDate(s: string)
  {
    |s| == 10 && s[4] == '-' && s[7] == '-'
    && forall i :: 0 <= i < 10 && i != 4 && i != 7 ==> IsDigit(s[i])
  }

  predicate IsCompactDate(d: string)
  {
    |d| == 8 && forall i :: 0 <= i < 8 ==> IsDigit(d[i])
  }

  lemma StripDigits(s: string)
    requires forall i :: 0 <= i < |s| ==> IsDigit(s[i])
    ensures StripDashes(s) == s
  {
    FilterAll(s, (c: char) => c != '-');
  }

  lemma StripDash()
    ensures StripDashes("-") == ""
  {
    assert "-"[1..] == "";
  }

  /** Stripping the dashes of a well-formed `YYYY-MM-DD` date and reformatting
      the response key gives the date back. */
  lemma StripThenReformat(s: string)
    requires IsIsoDate(s)
    ensures IsCompactDate(StripDashes(s))
    ensures ReformatCompactDate(StripDashes(s)) == s
  {
    var p := (c: char) => c != '-';
    var y, m, d := s[..4], s[5..7], s[8..];
    assert s == y + "-" + m + "-" + d;
    FilterAppend(y + "-" + m + "-", d, p);
    FilterAppend(y + "-" + m, "-", p);
    FilterAppend(y + "-", m, p);
    FilterAppend(y, "-", p);
    StripDigits(y);
    StripDigits(m);
    StripDigits(d);
    StripDash();
    assert StripDashes(s) == y + m + d;
  }

  /** Reformatting a well-formed `YYYYMMDD` key and stripping its dashes gives
      the key back. */
  lemma ReformatThenStrip(d: string)
    requires IsCompactDate(d)
    ensures IsIsoDate(ReformatCompactDate(d))
    ensures StripDashes(ReformatCompactDate(d)) == d
  {
    var r := ReformatCompactDate(d);
    assert IsIsoDate(r) by {
      forall i | 0 <= i < 10 && i != 4 && i != 7
        ensures IsDigit(r[i])
      {
        if i < 4 { assert r[i] == r[..4][i]; }
        else if i < 7 { assert r[i] == r[5..7][i - 5]; }
        else { assert r[i] == r[8..][i - 8]; }
      }
    }
    StripThenReformat(r);
    assert d == d[..4] + d[4..6] + d[6..];
  }

  // =====================================================================
  // Cumulative growing degree days (estimate_ndvi_from_weather)
  // =====================================================================

  const BaseTemp: real := 10.0

  /** A day's contribution: its mean temperature above the base, for days
      whose mean is known (`if weather['temp_avg'] and ...`) and above it. */
  function GddIncrement(t: Option<real>): (g: real)
    ensures 0.0 <= g
    ensures g > 0.0 <==> t.Some? && t.value > BaseTemp
    ensures g > 0.0 ==> g == t.value - BaseTemp
  {
    if t.Some? && t.value > BaseTemp then t.value - BaseTemp else 0.0
  }

  function Increments(temps: seq<Option<real>>): (r: seq<real>)
    ensures |r| == |temps|
    ensures forall i :: 0 <= i < |temps| ==> r[i] == GddIncrement(temps[i])
  {
    seq(|temps|, i requires 0 <= i < |temps| => GddIncrement(temps[i]))
  }

  /** The running total after each day, starting from `acc`. */
  function RunningGdd(temps: seq<Option<real>>, acc: real): (c: seq<real>)
    ensures |c| == |temps|
    ensures |temps| > 0 ==> c[0] == acc + GddIncrement(temps[0])
    ensures forall i :: 0 < i < |c| ==> c[i] == c[i - 1] + GddIncrement(temps[i])
  {
    if |temps| == 0 then []
    else
      var a := acc + GddIncrement(temps[0]);
      var rest := RunningGdd(temps[1..], a);
      assert forall i :: 1 < i < |temps| ==> rest[i - 1] == rest[i - 2] + GddIncrement(temps[i]);
      [a] + rest
  }

  /** `cumulative_gdd` as recorded with each day. */
  function CumulativeGdd(temps: seq<Option<real>>): (c: seq<real>)
    ensures |c| == |temps|
    ensures |temps| > 0 ==> c[0] == GddIncrement(temps[0])
    ensures forall i :: 0 < i < |c| ==> c[i] == c[i - 1] + GddIncrement(temps[i])
  {
    RunningGdd(temps, 0.0)
  }

  /** The running total is the sum of the increments so far. */
  lemma {:induction false} RunningIsPrefixSum(temps: seq<Option<real>>, acc: real, i: int)
    requires 0 <= i < |temps|
    ensures RunningGdd(temps, acc)[i] == acc + Sum(Increments(temps[..i + 1]))
  {
    var a := acc + GddIncrement(temps[0]);
    if i == 0 {
      assert Increments(temps[..1])[1..] == [];
    } else {
      RunningIsPrefixSum(temps[1..], a, i - 1);
      assert Increments(temps[..i + 1])[1..] == Increments(temps[1..][..i]);
    }
  }

  /** Day i's cumulative value is the sum of the first i + 1 increments. */
  lemma CumulativeIsPrefixSum(temps: seq<Option<real>>, i: int)
    requires 0 <= i < |temps|
    ensures CumulativeGdd(temps)[i] == Sum(Increments(temps[..i + 1]))
  {
    RunningIsPrefixSum(temps, 0.0, i);
  }

  /** The cumulative value never decreases and never goes negative; it grows
      from one day to the next exactly on days warmer than the base. */
  lemma {:induction false} CumulativeMonotone(temps: seq<Option<real>>, i: int, j: int)
    requires 0 <= i <= j < |temps|
    ensures 0.0 <= CumulativeGdd(temps)[i] <= CumulativeGdd(temps)[j]
    ensures 0 < i ==> (CumulativeGdd(temps)[i] > CumulativeGdd(temps)[i - 1]
      <==> temps[i].Some? && temps[i].value > BaseTemp)
    decreases j
  {
    var c := CumulativeGdd(temps);
    if j > i {
      CumulativeMonotone(temps, i, j - 1);
    } else if i > 0 {
      CumulativeMonotone(temps, i - 1, i - 1);
    }
  }

  // =====================================================================
  // The estimated series and detect_bloom_real
  // =====================================================================

  datatype WeatherDay = WeatherDay(date: int, tempAvg: Option<real>, precipitation: Option<real>)

  datatype EstimatedDay = EstimatedDay(date: int, ndvi: real, gdd: real, tempAvg: Option<real>,
                                       precipitation: Option<real>)

  function Temperatures(weather: seq<WeatherDay>): (t: seq<Option<real>>)
    ensures |t| == |weather|
    ensures forall i :: 0 <= i < |weather| ==> t[i] == weather[i].tempAvg
  {
    seq(|weather|, i requires 0 <= i < |weather| => weather[i].tempAvg)
  }

  /** `estimate_ndvi_from_weather`: one record per weather day, in order, with
      the day's date and weather, the clipped NDVI estimate and the
      cumulative GDD so far. */
  function EstimateNdvi(weather: seq<WeatherDay>, ndviAt: int -> real): (r: seq<EstimatedDay>)
    ensures |r| == |weather|
    ensures forall i :: 0 <= i < |r| ==> (r[i].date == weather[i].date
      && r[i].tempAvg == weather[i].tempAvg && r[i].precipitation == weather[i].precipitation)
    ensures forall i :: 0 <= i < |r| ==> r[i].ndvi == App.Clip01(ndviAt(i))
    ensures forall i :: 0 <= i < |r| ==> 0.0 <= r[i].ndvi <= 1.0
    ensures forall i :: 0 <= i < |r| ==> r[i].gdd == CumulativeGdd(Temperatures(weather))[i]
  {
    var gdd := CumulativeGdd(Temperatures(weather));
    assert forall i :: 0 <= i < |weather| ==> 0.0 <= App.Clip01(ndviAt(i)) <= 1.0;
    seq(|weather|, i requires 0 <= i < |weather| =>
      EstimatedDay(weather[i].date, App.Clip01(ndviAt(i)), gdd[i], weather[i].tempAvg,
                   weather[i].precipitation))
  }

  function NdviSeries(series: seq<EstimatedDay>): (v: seq<real>)
    ensures |v| == |series|
    ensures forall i :: 0 <= i < |series| ==> v[i] == series[i].ndvi
  {
    seq(|series|, i requires 0 <= i < |series| => series[i].ndvi)
  }

  datatype RealBloomEvent = RealBloomEvent(onsetDate: int, onsetNdvi: real, peakDate: int,
                                           peakNdvi: real, confidence: real,
                                           tempAtOnset: Option<real>, precipitation: Option<real>)

  datatype Detection =
    | FetchFailed
    | InsufficientData
    | NoBloom(series: seq<EstimatedDay>)
    | Bloom(event: RealBloomEvent, series: seq<EstimatedDay>)

  /** The detection once the series exists. */
  function DetectOnSeries(series: seq<EstimatedDay>, threshold: real): (r: Detection)
    requires 0.0 <= threshold
    ensures r == InsufficientData <==> |series| < 3
    ensures r.NoBloom? <==> (|series| >= 3
      && forall i :: 0 <= i < |series| - 1 ==> Step(NdviSeries(series), i) <= threshold)
    ensures !r.FetchFailed?
    ensures r.NoBloom? || r.Bloom? ==> r.series == series
    ensures r.Bloom? ==> exists i :: (IsOnset(NdviSeries(series), i, threshold)
      && r.event.onsetDate == series[i].date && r.event.onsetNdvi == series[i].ndvi
      && r.event.confidence == MinReal(10.0 * Step(NdviSeries(series), i), 1.0)
      && r.event.tempAtOnset == series[i].tempAvg && r.event.precipitation == series[i].precipitation)
    ensures r.Bloom? ==> exists k :: (IsFirstMax(NdviSeries(series), k)
      && r.event.peakDate == series[k].date && r.event.peakNdvi == series[k].ndvi)
    ensures r.Bloom? ==> 0.0 < r.event.confidence <= 1.0
  {
    if |series| < 3 then InsufficientData
    else
      match RapidRise(NdviSeries(series), threshold)
      case None => NoBloom(series)
      case Some(rise) =>
        var o := series[rise.onset];
        Bloom(RealBloomEvent(o.date, o.ndvi, series[rise.peak].date, series[rise.peak].ndvi,
                             rise.confidence, o.tempAvg, o.precipitation), series)
  }

  /** `detect_bloom_real` with an empty series reported as insufficient data
      (the form its length check evidently intends; see `DetectBloomRealAsWritten`). */
  function DetectBloomReal(weather: Option<seq<WeatherDay>>, ndviAt: int -> real, threshold: real)
    : (r: Detection)
    requires 0.0 <= threshold
    ensures r == FetchFailed <==> weather.None?
    ensures r == InsufficientData <==> weather.Some? && |weather.value| < 3
    ensures weather.Some? ==> r == DetectOnSeries(EstimateNdvi(weather.value, ndviAt), threshold)
  {
    match weather
    case None => FetchFailed
    case Some(w) => DetectOnSeries(EstimateNdvi(w, ndviAt), threshold)
  }

  /** What escapes `detect_bloom_real` as an exception. */
  datatype Raised = EmptyReduction

  /** `detect_bloom_real` as written: `fetch_vegetation_indices_real` takes
      `np.max` of the NDVI values before the length check runs, and `np.max`
      of an empty array raises, so a successful fetch of zero days escapes as
      an exception instead of 'Insufficient data points'. */
  function DetectBloomRealAsWritten(weather: Option<seq<WeatherDay>>, ndviAt: int -> real,
                                    threshold: real): (r: Result<Detection, Raised>)
    requires 0.0 <= threshold
    ensures r.Err? <==> weather == Some([])
    ensures r.Ok? ==> r.value == DetectBloomReal(weather, ndviAt, threshold)
  {
    match weather
    case None => Ok(FetchFailed)
    case Some(w) =>
      if |w| == 0 then Err(EmptyReduction)
      else Ok(DetectOnSeries(EstimateNdvi(w, ndviAt), threshold))
  }

  /** The discrepancy: on an empty successful fetch the code as written
      raises, where the corrected form answers with insufficient data. */
  lemma EmptyFetchRaises(ndviAt: int -> real, threshold: real)
    requires 0.0 <= threshold
    ensures DetectBloomRealAsWritten(Some([]), ndviAt, threshold) == Err(EmptyReduction)
    ensures DetectBloomReal(Some([]), ndviAt, threshold) == InsufficientData
  {
  }

  function AsSamples(series: seq<EstimatedDay>): (s: seq<App.Sample>)
    ensures |s| == |series|
    ensures forall i :: 0 <= i < |series| ==> s[i] == App.Sample(series[i].date, series[i].ndvi)
  {
    seq(|series|, i requires 0 <= i < |series| => App.Sample(series[i].date, series[i].ndvi))
  }

  /** The service's copy of the detector and the demo endpoint's copy agree:
      on the same dated NDVI series and threshold, one finds a bloom iff the
      other does, with the same onset, peak and confidence. */
  lemma CopiesAgree(series: seq<EstimatedDay>, threshold: real)
    requires 0.0 <= threshold
    ensures DetectOnSeries(series, threshold).Bloom? <==>
      App.DetectBloomFromNdvi(AsSamples(series), threshold).Some?
    ensures DetectOnSeries(series, threshold).Bloom? ==>
      var e := DetectOnSeries(series, threshold).event;
      var a := App.DetectBloomFromNdvi(AsSamples(series), threshold).value;
      e.onsetDate == a.onsetDate && e.onsetNdvi == a.onsetNdvi && e.peakDate == a.peakDate
      && e.peakNdvi == a.peakNdvi && e.confidence == a.confidence
  {
    assert NdviSeries(series) == App.Ndvis(AsSamples(series));
  }
}
